=== FILE: README.md ===
# Cronobra front end: a verified model of its core

Cronobra is a React front end for tracking construction tasks. Supervisors (role ADMIN)
create schedules and assign tasks. Workers start tasks and complete them with a photo as
evidence. Supervisors then approve or reject the completed work. This project models the
logic under the pages in Dafny:

- **Key-case transformer** (`transformers.dfy`, `case_keys.dfy`). JSON trees are sent to
  the server with camelCase keys and read back with snake_case keys. The key rewrites are
  string functions with their conditional round trips. The two converters are recursive
  methods whose entry loop is proved equal to a specification function (`Rekey`).
- **Session store and HTTP interceptors** (`api_client.dfy`). The browser storage is the
  `map<string, string>` field of a `TokenStore` class. An axios request configuration and a
  response are small classes that the interceptors rewrite in place. The redirect to
  `/login` is a returned value.
- **Query keys and cache invalidation** (`query_keys.dfy`, `task_queries.dfy`,
  `schedule_queries.dfy`, `user_queries.dfy`, `evidence_queries.dfy`, `auth_queries.dfy`).
  A key is a sequence of segments. The query cache is a class over a map from keys to
  entries. Invalidating a prefix marks stale every entry whose key starts with it. That
  prefix rule is the one assumption made about the query library. Each mutation's success
  handler is a method, and lemmas state exactly which entries it marks stale.
- **Authentication context and route guards** (`auth_context.dfy`, `routes.dfy`). Each
  guard is a pure function that returns `Allow` or `Redirect(path, search)`.
- **Local five-state task scheme** (`legacy_types.dfy`, `supervisor_dashboard.dfy`,
  `worker_dashboard.dfy`, `create_task_dialog.dfy`, `task_list.dfy`,
  `legacy_worker_task_list.dfy`). Tasks move through PENDING, IN_PROGRESS, COMPLETED,
  APPROVED and REJECTED over an in-memory `AppData` with an append-only trace log. The
  dashboards are classes whose handlers install a new `AppData` built by a pure function.
- **Server-backed three-state scheme** (`api_types.dfy`, `worker_task_list.dfy`,
  `schedule_list.dfy`, `admin_pages.dfy`). Tasks are PENDING, IN_PROGRESS or COMPLETED.
  Rejecting a task asks the server to put it back to PENDING. Approving it only shows a
  message.
- **Admin registration form** (`register_page.dfy`).
- **Shared pieces.** `seqs.dfy` holds `Filter`, `Find`, `Option` and `Result`. `js_text.dfy`
  holds the JavaScript string built-ins the pages rely on: `toString` and `parseInt` for
  integers, `trim`, and the UTF-16 `length`.

The client handlers enforce nothing about task transitions. They check neither the
previous status, nor the assignee, nor the role. The only guards are the conditions that
decide which buttons are shown. The model states exactly this.

Four facts about the code that the model keeps as they are:

- The local start and complete handlers check neither the task's previous status nor its
  assignee; starting is allowed from any status (`Worker.StartIgnoresPreviousStatus`).
- On a 401 answer the interceptor removes both tokens and sends the browser to `/login`,
  and only when the request configuration is attached to the error. It does not touch
  the query cache (`ApiClient.HandleFailure`).
- The five-state lists exempt only APPROVED and REJECTED from the overdue badge, so a
  COMPLETED task can be overdue there. The three-state list exempts COMPLETED
  (`WorkerTaskList.OverdueRulesCompared`).
- `handleUpdateTask` logs one UPDATED entry even when no task has the given id
  (`Supervisor.WithUpdatedTask`).

The admin route guard reads the user from the router context. The root route's
`beforeLoad` (`src/routes/__root.tsx:8-11`) adds nothing to that context. So unless the
router is created with a user in its initial context, any holder of an access token passes
the guard, a WORKER included (`AdminRoute.NoContextUserAdmitsAnyTokenHolder`).
`src/main.tsx`, where the router is created, is not part of this model.

## Model

| member | source | states |
|---|---|---|
| CaseKeys.SnakeKey | src/lib/transformers.ts:18 | the snake_case key has no ASCII capital, is empty only for an empty key, is at least as long, and starts with `_` exactly when the key starts with a capital |
| CaseKeys.SnakeKeyAppend | src/lib/transformers.ts:18 | the rewrite works character by character: the rewrite of a concatenation is the concatenation of the rewrites |
| CaseKeys.SnakeKeyChar | src/lib/transformers.ts:18 | a capital becomes `_` followed by its lower case; any other character is kept |
| CaseKeys.CamelKey | src/lib/transformers.ts:47 | the camelCase key has no `_` directly followed by a lower-case ASCII letter, is no longer than the key, and is empty only for an empty key |
| CaseKeys.CamelOfSnake | src/lib/transformers.ts:18 | a key with no `_` before a lower-case letter comes back unchanged from snake_case then camelCase |
| CaseKeys.SnakeOfCamel | src/lib/transformers.ts:47 | a key with no capital comes back unchanged from camelCase then snake_case |
| CaseKeys.SnakeKeyInjective | src/lib/transformers.ts:18 | two keys without `_`+lower-case boundaries that map to the same snake_case key are equal |
| CaseKeys.CamelKeyInjective | src/lib/transformers.ts:47 | two keys without capitals that map to the same camelCase key are equal |
| CaseKeys.SnakeKeyCollision | src/lib/transformers.ts:18 | without that condition the rewrite is not injective: `aB` and `a_b` both become `a_b` |
| Transformers.Put | src/lib/transformers.ts:21-27 | assigning a key of the result object: the key reads back as the value, every other key keeps its value, a new key is appended last, an existing key leaves the length unchanged |
| Transformers.PutInPlace | src/lib/transformers.ts:21-27 | assigning a key the object already has rewrites the entry of its first occurrence, in its place, and no other entry |
| Transformers.KeyIndex | src/lib/transformers.ts:21-27 | the position of the first entry with the key: it holds the key and no earlier entry does |
| Transformers.Collect | src/lib/transformers.ts:15-31 | the object built by the entry loop has exactly the keys written to it |
| Transformers.CollectDistinct | src/lib/transformers.ts:15-31 | the built object never holds a key twice |
| Transformers.CollectOfDistinct | src/lib/transformers.ts:15-31 | when no two written keys coincide the built object holds the entries in their order |
| Transformers.CollectKeepsLastWrite | src/lib/transformers.ts:17-29 | under each key, the built object holds the value of the last pair written with that key |
| Transformers.Rekey | src/lib/transformers.ts:11-13 | null and primitives are returned unchanged; arrays stay arrays of the same length; objects stay objects with no duplicate key |
| Transformers.RenamedEntries | src/lib/transformers.ts:17-28 | each entry keeps its position, its key is renamed and its value converted |
| Transformers.RekeyObjectEntries | src/lib/transformers.ts:17-28 | when renaming separates the keys, an object's entries keep their order, with renamed keys and converted values |
| Transformers.ConvertKeys | src/lib/transformers.ts:8-32 | the recursive converter with its entry loop computes `Rekey`: the loop invariant is that the result holds the collected renamed prefix of the entries |
| Transformers.ConvertField | src/lib/transformers.ts:20-28 | a field value is converted when it is an object, element by element when it is an array (object elements converted, others kept), and copied otherwise |
| Transformers.ToSnakeCase | src/lib/transformers.ts:8-32 | `toSnakeCase` is the snake_case rewrite of every key of the tree |
| Transformers.ToCamelCase | src/lib/transformers.ts:37-61 | `toCamelCase` is the camelCase rewrite of every key of the tree |
| Transformers.RekeyKeepsLeaves | src/lib/transformers.ts:26-28 | when renaming keeps each object's keys apart, only keys change: the leaf values of the tree, in order, are the same before and after |
| Transformers.RekeyRoundTrip | src/lib/transformers.ts:11-28 | converting a well-formed tree with a key rename and then with a rename that undoes it on every key gives the tree back |
| Transformers.RoundTripObject | src/lib/transformers.ts:15-31 | the same round trip for one object whose keys are distinct and whose values round-trip |
| Transformers.CamelAfterSnake | src/lib/transformers.ts:18 | `toCamelCase(toSnakeCase(j)) == j` when no key has `_` before a lower-case letter |
| Transformers.SnakeAfterCamel | src/lib/transformers.ts:47 | `toSnakeCase(toCamelCase(j)) == j` when no key has a capital |
| Transformers.SnakeKeepsLastWrite | src/lib/transformers.ts:15-31 | `toSnakeCase` of an object holds, under each renamed key, the converted value of the last entry whose key renames to it: keys that rename to the same key collide and the later value overwrites the earlier one |
| Transformers.SnakeCollisionKeepsLastWrite | src/lib/transformers.ts:21-27 | an instance of `SnakeKeepsLastWrite`: `aB` and `a_b` both become `a_b`, and the object keeps the later value |
| Transformers.FormatISODate | src/lib/transformers.ts:66-69 | empty or missing input gives the empty string; otherwise the text before the first `T`, or the whole text when there is none |
| Transformers.MapTaskStatus | src/lib/transformers.ts:82-87 | the status is returned unchanged |
| JsText.DecimalString | src/components/features/workers/WorkerTaskList.tsx:98 | `id.toString()` is a non-empty string of digits, with a leading minus exactly for negative ids |
| JsText.ParseInt | src/routes/_authenticated/_admin/tasks.index.tsx:37 | `parseInt` of text with no digit where one is needed is NaN (None); a leading digit always gives a number |
| JsText.ParseIntOfDecimal | src/routes/_authenticated/_admin/tasks.index.tsx:37 | `parseInt(n.toString())` is `n` for every integer `n` |
| JsText.Trim | src/components/common/RegisterPage.tsx:48-49 | `trim` returns a contiguous part of the text surrounded only by white space, with no white space at either end |
| JsText.TrimIdempotent | src/components/common/RegisterPage.tsx:48-49 | trimming twice is trimming once |
| JsText.Utf16Length | src/components/common/RegisterPage.tsx:38 | the JavaScript length lies between the character count and twice it, and equals it on the Basic Multilingual Plane |
| ApiClient.GetItem | src/lib/api-client.ts:99-105 | a stored key reads back as its value; a missing key reads as null (None) |
| ApiClient.TokenStore.GetAccessToken | src/lib/api-client.ts:99-101 | reads the access-token entry of the storage |
| ApiClient.TokenStore.GetRefreshToken | src/lib/api-client.ts:103-105 | reads the refresh-token entry of the storage |
| ApiClient.TokenStore.SetAccessToken | src/lib/api-client.ts:107-109 | the access token reads back as the value written; the refresh token is untouched |
| ApiClient.TokenStore.SetRefreshToken | src/lib/api-client.ts:111-113 | the refresh token reads back as the value written; the access token is untouched |
| ApiClient.TokenStore.SetTokens | src/lib/api-client.ts:115-118 | both tokens read back as written, and the session counts as authenticated exactly when the access token is non-empty |
| ApiClient.TokenStore.ClearTokens | src/lib/api-client.ts:120-123 | both tokens read back as null, the session is not authenticated, and every other entry is kept |
| ApiClient.TokenStore.IsAuthenticated | src/lib/api-client.ts:125-127 | true exactly when a non-empty access token is stored |
| ApiClient.InterceptRequest | src/lib/api-client.ts:23-47 | `Authorization: Bearer <token>` exactly when a non-empty token is stored; Content-Type defaults to JSON only for a non-FormData request without one; other headers are kept; a present JSON body is converted to camelCase only when the Content-Type is JSON |
| ApiClient.InterceptResponse | src/lib/api-client.ts:55-61 | object and array bodies are converted to snake_case; other bodies and the status are untouched |
| ApiClient.ToApiError | src/lib/api-client.ts:86-94 | the message is the server's, else the transport's, else `An error occurred`, and is never empty; the status code and the field errors are the server's when it answered |
| ApiClient.HandleFailure | src/lib/api-client.ts:62-95 | a 401 with a known request removes both tokens and sends the browser to `/login`, whether or not a refresh token was stored; any other failure changes nothing; every failure is rejected as `ToApiError` |
| QueryKeys.Lists | src/hooks/queries/useTasks.ts:9 | `lists()` is the root followed by `list` |
| QueryKeys.List | src/hooks/queries/useTasks.ts:10 | `list(f)` is `lists()` followed by the filters object |
| QueryKeys.Details | src/hooks/queries/useTasks.ts:11 | `details()` is the root followed by `detail` |
| QueryKeys.Detail | src/hooks/queries/useTasks.ts:12 | `detail(id)` is `details()` followed by the id |
| QueryKeys.FactoryHierarchy | src/hooks/queries/useTasks.ts:8-12 | every key of a factory starts with its root; `list(f)` starts with `lists()` and `detail(id)` with `details()` |
| QueryKeys.DetailCoversOnlySameId | src/hooks/queries/useTasks.ts:12-13 | `detail(a)` is a prefix of `detail(b)` or of any key extending it exactly when the roots and ids are equal |
| QueryKeys.ListsNeverCoverDetail | src/hooks/queries/useTasks.ts:9-13 | `lists()` is never a prefix of a detail key or of a key extending one |
| QueryKeys.RootsSeparate | src/hooks/queries/useUsers.ts:6-12 | a prefix of one root never covers a key of another root |
| QueryKeys.InvalidatedAllEffect | src/hooks/queries/useTasks.ts:61-67 | invalidating a sequence of prefixes keeps every entry and its data and marks stale exactly the entries some prefix covers |
| QueryKeys.QueryCache.Invalidate | src/hooks/queries/useTasks.ts:49 | `invalidateQueries` marks stale the entries the prefix covers |
| QueryKeys.QueryCache.SetQueryData | src/hooks/queries/useAuth.ts:32 | `setQueryData` writes a fresh entry for the key and nothing else |
| QueryKeys.QueryCache.Clear | src/hooks/queries/useAuth.ts:54 | `clear` empties the cache |
| TaskQueries.Logs | src/hooks/queries/useTasks.ts:13 | `logs(id)` is `detail(id)` followed by `logs`, so `detail(id)` and the root both cover it |
| TaskQueries.UseTasks | src/hooks/queries/useTasks.ts:17-22 | the task list query uses `lists()` and is always enabled |
| TaskQueries.UseTask | src/hooks/queries/useTasks.ts:25-31 | the single-task query uses `detail(id)` and is enabled exactly for a non-zero id |
| TaskQueries.UseTaskLogs | src/hooks/queries/useTasks.ts:34-40 | the task-log query uses `logs(id)` and is enabled exactly for a non-zero id |
| TaskQueries.OnCreateTaskSuccess | src/hooks/queries/useTasks.ts:48-50 | creating a task invalidates the `lists()` prefix |
| TaskQueries.OnUpdateStatusSuccess | src/hooks/queries/useTasks.ts:61-67 | a status update invalidates `detail(id)`, `logs(id)` and `lists()`, in that order |
| TaskQueries.CreateTaskTouches | src/hooks/queries/useTasks.ts:48-50 | creating a task touches exactly the keys under `lists()`, never a task's detail or logs |
| TaskQueries.UpdateStatusTouches | src/hooks/queries/useTasks.ts:61-67 | a status update touches exactly the keys under `detail(id)` or `lists()` |
| TaskQueries.UpdateStatusSparesOtherTasks | src/hooks/queries/useTasks.ts:61-67 | a status update touches another task's detail or logs only when the ids are equal, and always touches every list |
| ScheduleQueries.UseSchedules | src/hooks/queries/useSchedules.ts:15-20 | the schedule list query uses `['schedules','list']` |
| ScheduleQueries.UseSchedule | src/hooks/queries/useSchedules.ts:23-29 | the single-schedule query uses `['schedules','detail',id]` and is enabled exactly for a non-zero id |
| ScheduleQueries.OnCreateScheduleSuccess | src/hooks/queries/useSchedules.ts:37-39 | creating a schedule invalidates `lists()` |
| ScheduleQueries.OnUpdateScheduleSuccess | src/hooks/queries/useSchedules.ts:50-53 | updating a schedule invalidates `lists()` then `detail(id)` |
| ScheduleQueries.OnDeleteScheduleSuccess | src/hooks/queries/useSchedules.ts:63-65 | deleting a schedule invalidates `lists()` |
| ScheduleQueries.CreateAndDeleteTouchOnlyLists | src/hooks/queries/useSchedules.ts:63-65 | create and delete touch exactly the keys under `lists()`; delete leaves the deleted schedule's detail entry alone |
| ScheduleQueries.UpdateTouches | src/hooks/queries/useSchedules.ts:50-53 | an update touches exactly the keys under `lists()` or `detail(id)`, and another schedule's detail only for the same id |
| UserQueries.UseUsers | src/hooks/queries/useUsers.ts:15-20 | the user list query uses `['users','list']` |
| UserQueries.UseUser | src/hooks/queries/useUsers.ts:23-29 | the single-user query uses `['users','detail',id]` and is enabled exactly for a non-zero id |
| UserQueries.OnCreateUserSuccess | src/hooks/queries/useUsers.ts:37-39 | creating a user invalidates `lists()` |
| UserQueries.OnUpdateUserSuccess | src/hooks/queries/useUsers.ts:50-53 | updating a user invalidates `lists()` then `detail(id)` |
| UserQueries.OnDeleteUserSuccess | src/hooks/queries/useUsers.ts:63-65 | deleting a user invalidates `lists()` |
| UserQueries.CreateAndDeleteTouchOnlyLists | src/hooks/queries/useUsers.ts:37-39 | create and delete touch exactly the keys under `lists()`; delete leaves the user's detail entry alone |
| UserQueries.UpdateTouches | src/hooks/queries/useUsers.ts:50-53 | an update touches exactly the keys under `lists()` or `detail(id)` |
| UserQueries.UserMutationsSpareTasksAndSchedules | src/hooks/queries/useUsers.ts:6-12 | no user mutation touches a task or schedule key |
| EvidenceQueries.ByTask | src/hooks/queries/useEvidence.ts:6-9 | `byTask(id)` is `['evidence','task',id]` |
| EvidenceQueries.UseTaskEvidence | src/hooks/queries/useEvidence.ts:12-18 | the evidence query uses `byTask(id)` and is enabled exactly for a non-zero id |
| EvidenceQueries.OnUploadSuccess | src/hooks/queries/useEvidence.ts:34-42 | an upload invalidates the task's `detail(id)` then `byTask(id)` |
| EvidenceQueries.UploadTouches | src/hooks/queries/useEvidence.ts:34-42 | an upload touches exactly the keys under the task's detail or its evidence key, the task's logs included |
| EvidenceQueries.UploadSparesListsAndOtherTasks | src/hooks/queries/useEvidence.ts:34-42 | an upload never touches a task list, and touches another task's detail or logs only for the same id |
| AuthQueries.Me | src/hooks/queries/useAuth.ts:7-10 | `me()` is `['auth','me']` |
| AuthQueries.UseMe | src/hooks/queries/useAuth.ts:13-19 | the current-user query uses `me()` and is never retried |
| AuthQueries.OnLoginSuccess | src/hooks/queries/useAuth.ts:27-33 | a login stores both returned tokens and writes the returned user as a fresh `me()` entry |
| AuthQueries.RefetchMe | src/contexts/AuthContext.tsx:33 | a successful refetch writes the user as the `me()` entry; a failed one leaves the cache alone |
| AuthQueries.Register | src/hooks/queries/useAuth.ts:38-42 | registering stores no token and touches no cache entry |
| AuthQueries.Logout | src/hooks/queries/useAuth.ts:49-55 | logout removes both tokens and empties the cache |
| AuthContext.CurrentUser | src/contexts/AuthContext.tsx:23 | the context's user is the `me()` entry when it holds a user, and nothing otherwise |
| AuthContext.ProviderValue | src/contexts/AuthContext.tsx:42-48 | `isAuthenticated` holds exactly when an access token is stored and a user is loaded |
| AuthContext.LoggedOutContext | src/contexts/AuthContext.tsx:37-45 | after logout the context has no user and is not authenticated |
| AuthContext.LoggedInContext | src/contexts/AuthContext.tsx:31-45 | after a login with a non-empty token the context holds the returned user and is authenticated |
| AuthContext.ExpiredRefetchContext | src/contexts/AuthContext.tsx:31-48 | after a login whose user refetch met an expired session, the stored user is still published but the context is not authenticated |
| AuthContext.Login | src/contexts/AuthContext.tsx:31-35 | a failed login is rejected with the interceptor's error, skips the refetch and leaves the cache; a successful one stores the tokens and then refetches the user, keeping the login's user when the refetch fails; a failed request with an expired session (401 with a known request), at either step, removes both tokens and redirects to `/login`, otherwise the tokens stay and there is no redirect |
| AuthContext.Logout | src/contexts/AuthContext.tsx:37-40 | logout is the logout mutation |
| AuthContext.UseAuth | src/contexts/AuthContext.tsx:53-58 | outside the provider the hook fails with `useAuth must be used within an AuthProvider`; inside it returns the context |
| AuthenticatedRoute.BeforeLoad | src/routes/_authenticated.tsx:7-17 | navigation goes through exactly when an access token is stored; otherwise it redirects to `/login` with `redirect` set to the attempted address |
| AdminRoute.BeforeLoad | src/routes/_authenticated/_admin.tsx:7-19 | no token redirects to `/login`; a known non-ADMIN user redirects to `/`; navigation goes through exactly when a token is stored and the user is unknown or an ADMIN |
| AdminRoute.NoContextUserAdmitsAnyTokenHolder | src/routes/_authenticated/_admin.tsx:14-16 | with no user in the context every token holder passes, while the same WORKER known to the context would be sent to `/` |
| AdminRoute.AdminImpliesAuthenticated | src/routes/_authenticated/_admin.tsx:8-10 | whatever the context holds, the admin layout admits only navigations the authenticated layout admits |
| LoginRoute.BeforeLoad | src/routes/_public/login.tsx:6-11 | a visitor with a stored token is sent to `/`; anyone else gets the login page; no loaded user is consulted |
| LoginRoute.LoginAndAuthenticatedExclusive | src/routes/_public/login.tsx:8 | for every storage state exactly one of the login page and the authenticated layout is reachable |
| DashboardRoute.DashboardPage | src/routes/_authenticated/dashboard.tsx:11-24 | exactly one view: loading without a user, the supervisor dashboard for an ADMIN, the worker dashboard for anyone else |
| LegacyTypes.UpdateWhere | src/components/SupervisorDashboard.tsx:63-65 | every task with the id is rewritten, every other task is kept, and the count and order are preserved |
| LegacyTypes.UpdateWhereAbsent | src/components/SupervisorDashboard.tsx:63-65 | when no task has the id the tasks are unchanged |
| LegacyTypes.IsOverdue | src/components/features/tasks/TaskList.tsx:62-65 | APPROVED and REJECTED tasks are never overdue; any other, COMPLETED included, is overdue exactly when its due date parses to an instant before now |
| Supervisor.Merge | src/components/SupervisorDashboard.tsx:64 | the merged task is stamped with now and takes the patch's status when given; a status-only patch changes nothing else |
| Supervisor.WithSchedule | src/components/SupervisorDashboard.tsx:31-37 | the schedule is appended last; tasks, workers and the trace log are unchanged |
| Supervisor.WithTask | src/components/SupervisorDashboard.tsx:39-57 | the task is appended last and exactly one CREATED entry for its id is appended to the log; schedules and workers are unchanged |
| Supervisor.WithUpdatedTask | src/components/SupervisorDashboard.tsx:59-78 | only tasks with the id are merged; the count is kept; exactly one UPDATED entry is logged even when no task has the id |
| Supervisor.TraceLogAppendOnly | src/components/SupervisorDashboard.tsx:44-45 | every supervisor handler keeps the old log as a prefix of the new one |
| Supervisor.ApproveSetsApproved | src/components/SupervisorDashboard.tsx:80-82 | approval sets APPROVED and the timestamp on the task, whatever its previous status |
| Supervisor.TasksForSchedule | src/components/SupervisorDashboard.tsx:93-95 | empty without a selection, otherwise the tasks of the selected schedule in their order |
| Supervisor.CountsFor | src/components/SupervisorDashboard.tsx:212-215 | each count on a worker's card is the number of all tasks assigned to the worker in that status (one filter over all tasks, proved equal to the source's filter of a filter); the three sum to at most the worker's task count |
| Supervisor.CountsIgnoreOtherWorkers | src/components/SupervisorDashboard.tsx:212 | adding tasks assigned to others leaves a worker's counts unchanged |
| Supervisor.SupervisorDashboard.HandleCreateSchedule | src/components/SupervisorDashboard.tsx:31-37 | installs `WithSchedule` and closes the schedule dialog; the other dialog and selection state are kept |
| Supervisor.SupervisorDashboard.HandleCreateTask | src/components/SupervisorDashboard.tsx:39-57 | installs `WithTask` and closes the task dialog |
| Supervisor.SupervisorDashboard.HandleUpdateTask | src/components/SupervisorDashboard.tsx:59-78 | installs `WithUpdatedTask`; dialogs and selections are kept |
| Supervisor.SupervisorDashboard.HandleApproveTask | src/components/SupervisorDashboard.tsx:80-82 | an update with status APPROVED and the approval text |
| Supervisor.SupervisorDashboard.HandleRejectTask | src/components/SupervisorDashboard.tsx:84-86 | an update with status REJECTED and the rejection text |
| Supervisor.SupervisorDashboard.HandleViewTaskDetails | src/components/SupervisorDashboard.tsx:88-91 | selects the task and opens its details; the data is unchanged |
| Worker.MyTasks | src/components/dashboards/WorkerDashboard.tsx:26 | exactly the tasks assigned to the current user |
| Worker.BucketsOf | src/components/dashboards/WorkerDashboard.tsx:28-35 | the pending, in-progress and completed buckets hold the tasks of their statuses (the completed one also APPROVED and REJECTED) and together count every task once |
| Worker.BucketsDisjoint | src/components/dashboards/WorkerDashboard.tsx:28-35 | no task is in two buckets |
| Worker.WithStartedTask | src/components/dashboards/WorkerDashboard.tsx:37-56 | the tasks with the id become IN_PROGRESS and are stamped, no other task changes, schedules and workers are kept, and exactly one STATUS_CHANGED entry is logged |
| Worker.WithEvidence | src/components/dashboards/WorkerDashboard.tsx:63-89 | the tasks with the id become COMPLETED with the photo and upload instant as evidence and are stamped, no other task changes, and exactly one EVIDENCE_UPLOADED entry is logged |
| Worker.StartIgnoresPreviousStatus | src/components/dashboards/WorkerDashboard.tsx:37-43 | starting sets IN_PROGRESS whatever the previous status, and keeps the assignee: the handler checks neither |
| Worker.WorkerDashboard.HandleStartTask | src/components/dashboards/WorkerDashboard.tsx:37-56 | installs `WithStartedTask`; the dialog and selection are kept |
| Worker.WorkerDashboard.HandleCompleteTask | src/components/dashboards/WorkerDashboard.tsx:58-61 | changes no task; selects the task and opens the evidence dialog |
| Worker.WorkerDashboard.HandleUploadEvidence | src/components/dashboards/WorkerDashboard.tsx:63-92 | installs `WithEvidence`, then closes the dialog and clears the selection |
| CreateTaskDialog.NewTask | src/components/CreateTaskDialog.tsx:46-57 | the new task is PENDING, in the dialog's schedule, with the form's fields, created and updated at the same instant, without evidence |
| CreateTaskDialog.TaskForm.HandleSubmit | src/components/CreateTaskDialog.tsx:43-64 | returns the task built from the fields as they were, then all four fields are empty |
| CreateTaskDialog.TaskForm.HandleClose | src/components/CreateTaskDialog.tsx:66-72 | all four fields are empty |
| TaskListView.AssigneeLabel | src/components/features/tasks/TaskList.tsx:78 | the first worker with the assignee id decides the label: its name when non-empty, `Sin asignar` otherwise; `Sin asignar` also when no worker has the id; the label is never empty |
| TaskListView.ScheduleName | src/components/features/tasks/TaskList.tsx:79 | a schedule name is shown exactly when a schedule list is given and one has the task's schedule id |
| TaskListView.Card | src/components/features/tasks/TaskList.tsx:77-152 | approve and reject pass the task's id exactly for COMPLETED tasks; the evidence marker shows exactly when evidence is present |
| TaskListView.Render | src/components/features/tasks/TaskList.tsx:67-77 | an empty list renders only the empty-state message; otherwise one card per task in order |
| TaskListView.ReviewOnlyCompleted | src/components/features/tasks/TaskList.tsx:132-152 | on a rendered list review buttons appear exactly on COMPLETED tasks, and reviewed tasks show no overdue badge |
| LegacyWorkerTaskList.Card | src/components/WorkerTaskList.tsx:52-138 | start passes the id exactly for PENDING; upload passes the task exactly for IN_PROGRESS; the banners match APPROVED and REJECTED; the evidence block shows the task's evidence |
| LegacyWorkerTaskList.OneControlPerStatus | src/components/WorkerTaskList.tsx:102-138 | a COMPLETED task shows no control; every other status shows exactly one |
| WorkerTaskList.IsOverdue | src/components/features/workers/WorkerTaskList.tsx:56-59 | COMPLETED is never overdue; otherwise overdue exactly when the due date is before now |
| WorkerTaskList.OverdueRulesCompared | src/components/features/workers/WorkerTaskList.tsx:56-59 | this rule agrees with the five-state rule on PENDING and IN_PROGRESS and differs on COMPLETED |
| WorkerTaskList.Card | src/components/features/workers/WorkerTaskList.tsx:63-114 | the start button appears exactly for PENDING and its text parses back to the task's id; upload appears exactly for IN_PROGRESS; never both; the schedule label appears exactly when a schedule matches |
| ScheduleListView.ScheduleTasks | src/components/features/schedules/ScheduleList.tsx:42 | exactly the tasks whose schedule id is the schedule's |
| ScheduleListView.CompletedCount | src/components/features/schedules/ScheduleList.tsx:43-45 | no tasks count 0 and one task counts 1 exactly when it is COMPLETED; at most the number of tasks, and equal to it iff all are COMPLETED |
| ScheduleListView.CompletedCountAppend | src/components/features/schedules/ScheduleList.tsx:43-45 | the count adds up over concatenated task lists, so with the one-task case it is the number of COMPLETED tasks |
| ScheduleListView.Progress | src/components/features/schedules/ScheduleList.tsx:46-49 | 0 with no tasks; otherwise completed / total × 100 (stated as `p × total == completed × 100`), within [0, 100], and 100 iff all are completed |
| ScheduleListView.RatioAtMostOne | src/components/features/schedules/ScheduleList.tsx:48 | completed over total lies in [0, 1] and is 1 exactly when they are equal |
| ScheduleListView.Card | src/components/features/schedules/ScheduleList.tsx:41-79 | the badge is the number of the schedule's tasks, the completed count is `CompletedCount` of those tasks and the progress is `Progress` of the two; 100 iff there are tasks and all are COMPLETED; the bar is drawn iff there are tasks; highlighted iff the selected schedule has this id |
| ScheduleListView.Render | src/components/features/schedules/ScheduleList.tsx:27-41 | no schedules renders only the empty-state message; otherwise one card per schedule |
| ScheduleListView.AtMostOneHighlighted | src/components/features/schedules/ScheduleList.tsx:51 | two schedules with different ids are never both highlighted |
| AdminPages.Workers | src/routes/_authenticated/_admin/tasks.index.tsx:22 | exactly the users whose role is WORKER |
| AdminPages.Approve | src/routes/_authenticated/_admin/schedules.index.tsx:34-37 | approving only shows the message and sends no status change |
| AdminPages.Reject | src/routes/_authenticated/_admin/tasks.index.tsx:30-40 | declining the confirmation sends nothing; a confirmed reject requests PENDING for the parsed id |
| AdminPages.RejectTargetsRenderedTask | src/routes/_authenticated/_admin/schedules.index.tsx:39-49 | a confirmed reject of the id a card passes requests PENDING for that same id |
| AdminPages.TasksForSchedule | src/routes/_authenticated/_admin/schedules.index.tsx:55-57 | empty without a selection, otherwise exactly the tasks of the selected schedule |
| AdminPages.TasksForScheduleKeepsOwnTasks | src/routes/_authenticated/_admin/schedules.index.tsx:55-57 | tasks that all belong to the selected schedule are all shown, in order |
| AdminPages.Page | src/routes/_authenticated/_admin/tasks.index.tsx:46-52 | only the loading view until schedules, tasks and users are loaded and a current user is known; then the workers shown are the WORKER users |
| RegisterPageForm.Validate | src/components/common/RegisterPage.tsx:31-41 | a mismatch is reported first, then a password shorter than 8 UTF-16 units; no message exactly when both checks pass |
| RegisterPageForm.LengthCheckBounds | src/components/common/RegisterPage.tsx:38 | eight characters always pass the length check and fewer than four never do |
| RegisterPageForm.FailureMessage | src/components/common/RegisterPage.tsx:57 | the error's message when it has one, otherwise `Error al crear la cuenta`; never empty |
| RegisterPageForm.RegisterPage.HandleSubmit | src/components/common/RegisterPage.tsx:27-61 | a failed check sends nothing and shows its message; otherwise the request carries the trimmed name and email and the untrimmed password, success navigates to `/login` with `registered=true`, failure shows the failure message, and loading ends false |
| RegisterPageForm.RequestIsTrimmed | src/components/common/RegisterPage.tsx:47-51 | the name and email sent have no white space at either end and are their own trim |

## Left out

- Rendering, styling and layout: badge labels and colours, icons, and the date formatting with `toLocaleDateString`, which depends on the locale.
- Clocks and generated ids: `new Date()` and `Date.now()` are an integer `now` parameter. The ids `trace-…` and `task-…` are a parameter or not modelled, and nothing claims they are unique.
- Date parsing: `new Date(text)` is a `DateParser` parameter. An invalid date (None) compares false with every instant. ISO timestamps of the local scheme are integers.
- Numbers are unbounded integers. JSON numbers carry no fraction. The progress percentage is an exact real, and its rounding with `Math.round` for display is not modelled.
- `undefined` is folded into `null` in the JSON model. `Object.entries` is taken in insertion order. JavaScript lists integer-like keys first, which is not modelled.
- `parseInt` does not skip leading white space and does not read hexadecimal prefixes. Only its behaviour on decimal text matters for the ids the pages pass.
- `toISODate` (`src/lib/transformers.ts:74-77`) parses and prints dates through `Date` and is not modelled.
- Axios treats header names case-insensitively. The model compares them exactly.
- The `catch` branch of the 401 handling cannot be reached from `clearTokens`. Its effect is the same as the main branch and is not modelled separately.
- Browser effects are values: `window.location.href`, `alert`, `confirm` (a boolean input) and navigation. `localStorage` is a map field.
- The query library: fetching, caching times, refetching and retries are not modelled beyond the `enabled` flag and the retry policy. The prefix rule `QueryKeys.Covers` for partial key matching is assumed.
- Service calls (`src/services/*.ts`) are opaque. Their replies are `Result` parameters. The login and user-refetch replies of `AuthContext.Login` are request failures that pass through `ApiClient.HandleFailure`; the other members take the `ApiError` the interceptor already produced, so the token removal and redirect of a 401 on those requests (register, the query and mutation hooks) are stated only in `ApiClient.HandleFailure`. `authService.registerAdmin`, which the register page calls, is not defined in `src/services/authService.ts`; the model takes the reply as given.
- The router's initial context, created in `src/main.tsx`, is not part of this model.
- CreateTaskDialog.TaskForm.HandleClose: does not model the `onClose` callback it calls, because that belongs to the parent component.
- The following components are outside the modelled core, and their logic is not modelled:
  - `src/components/features/schedules/CreateScheduleDialog.tsx:32-48` builds a new schedule record (id, name, dates, creation time and creator) and resets its form.
  - `src/components/features/evidence/UploadEvidenceDialog.tsx:42-49` uploads only when a photo preview exists.
  - `src/components/features/workers/CreateWorkerDialog.tsx:32-51` sends a request with the name and email trimmed and the role fixed to WORKER.
  - `src/routes/_authenticated/_admin/workers.tsx:23-30` deletes a worker only after `window.confirm`.
  - `src/components/common/Header.tsx:8-14` renders nothing unless the visitor is authenticated, and its logout button calls the context's `logout`.
  - The 3D viewer and the PWA code are not modelled either.
- Server-side rules (assignee checks, role checks, rejection of invalid transitions) are not client behaviour and are not added.

=== FILE: admin_pages.dfy ===
/** The two admin pages over server data, src/routes/_authenticated/_admin/tasks.index.tsx and
    src/routes/_authenticated/_admin/schedules.index.tsx. They share the worker filter and
    the review handlers: approving only shows a message, and rejecting, once confirmed,
    asks the server to put the task back to PENDING. `alert` and `confirm` are values. */
module AdminPages {
  import opened Seqs
  import opened JsText
  import opened ApiTypes

  const TASKS_APPROVED_ALERT: string := "Tarea confirmada como completada ✅"
  const SCHEDULES_APPROVED_ALERT: string := "Tarea aprobada correctamente ✅"

  /** `users.filter((u) => u.role === UserRole.WORKER)` */
  function Workers(users: seq<User>): (r: seq<User>)
    ensures |r| <= |users|
    ensures forall u :: u in r <==> u in users && u.role == WORKER
  {
    Filter(users, (u: User) => u.role == WORKER)
  }

  /** What a review button does: show a message, nothing, or send a status change for the
      parsed task id (None: `parseInt` gave NaN). */
  datatype ReviewEffect = Alert(message: string) | NoEffect | StatusRequest(taskId: Option<int>, status: TaskStatus)

  /** `handleApproveTask` of either page: a message, no request. */
  function Approve(alertMessage: string, taskId: string): (e: ReviewEffect)
    ensures !e.StatusRequest?
    ensures e.Alert? && e.message == alertMessage
  {
    Alert(alertMessage)
  }

  /** `handleRejectTask` of either page: nothing unless confirmed, then a request to set the
      parsed id's status to PENDING. */
  function Reject(taskId: string, confirmed: bool): (e: ReviewEffect)
    ensures !confirmed ==> e == NoEffect
    ensures confirmed ==> e.StatusRequest? && e.status == PENDING
    ensures confirmed ==> e.taskId == ParseInt(taskId)
  {
    if !confirmed then NoEffect else StatusRequest(ParseInt(taskId), PENDING)
  }

  /** The id a task card passes comes back intact: a confirmed rejection of task `id`
      requests PENDING for that same `id`. */
  lemma RejectTargetsRenderedTask(id: int)
    ensures Reject(DecimalString(id), true) == StatusRequest(Some(id), PENDING)
  {
    ParseIntOfDecimal(id);
  }

  /** `selectedSchedule ? tasks.filter((t) => t.schedule_id === selectedSchedule.id) : []` */
  function TasksForSchedule(tasks: seq<Task>, selected: Option<Schedule>): (r: seq<Task>)
    ensures selected.None? ==> r == []
    ensures selected.Some? ==> forall t :: t in r <==> t in tasks && t.scheduleId == selected.value.id
    ensures |r| <= |tasks|
  {
    if selected.None? then [] else Filter(tasks, (t: Task) => t.scheduleId == selected.value.id)
  }

  /** Choosing a schedule whose tasks are all in the list shows them all, in order. */
  lemma TasksForScheduleKeepsOwnTasks(tasks: seq<Task>, schedule: Schedule)
    requires forall t :: t in tasks ==> t.scheduleId == schedule.id
    ensures TasksForSchedule(tasks, Some(schedule)) == tasks
  {
    FilterAll(tasks, (t: Task) => t.scheduleId == schedule.id);
  }

  /** A page: the loading placeholder, or the content built from the loaded data. */
  datatype PageView = LoadingPage | Ready(currentUser: User, workers: seq<User>, tasks: seq<Task>, schedules: seq<Schedule>)

  /** Both pages show only the placeholder while any of the three lists is loading or no
      current user is known. */
  function Page(loadingSchedules: bool, loadingTasks: bool, loadingUsers: bool, currentUser: Option<User>,
                schedules: seq<Schedule>, tasks: seq<Task>, users: seq<User>): (v: PageView)
    ensures v.LoadingPage? <==> loadingSchedules || loadingTasks || loadingUsers || currentUser.None?
    ensures v.Ready? ==> v.currentUser == currentUser.value && v.workers == Workers(users)
    ensures v.Ready? ==> v.tasks == tasks && v.schedules == schedules
  {
    if loadingSchedules || loadingTasks || loadingUsers || currentUser.None? then LoadingPage
    else Ready(currentUser.value, Workers(users), tasks, schedules)
  }
}

=== FILE: api_client.dfy ===
/** The session store and the HTTP interceptors of src/lib/api-client.ts. Browser
    `localStorage` is the `storage` map of a TokenStore; an axios request configuration and
    response are small classes whose fields the interceptors rewrite in place; the
    assignment to `window.location.href` is returned as a value. */
module ApiClient {
  import opened Seqs
  import opened Transformers
  import opened ApiTypes

  const ACCESS_TOKEN_KEY: string := "cronobra_access_token"
  const REFRESH_TOKEN_KEY: string := "cronobra_refresh_token"

  const AUTHORIZATION: string := "Authorization"
  const CONTENT_TYPE: string := "Content-Type"
  const JSON_MEDIA_TYPE: string := "application/json"
  const DEFAULT_ERROR_MESSAGE: string := "An error occurred"
  const LOGIN_PATH: string := "/login"

  /** `localStorage.getItem(key)`, and a header read: None is `null` or `undefined`. */
  function GetItem(storage: map<string, string>, key: string): (r: Option<string>)
    ensures r.Some? <==> key in storage
    ensures r.Some? ==> r.value == storage[key]
  {
    if key in storage then Some(storage[key]) else None
  }

  /** `!!getAccessToken()`: an access token is stored and is not the empty string. */
  predicate HasAccessToken(storage: map<string, string>) {
    ACCESS_TOKEN_KEY in storage && storage[ACCESS_TOKEN_KEY] != ""
  }

  /** The token functions over the browser's storage. Other entries of the storage belong
      to other code and are never touched. */
  class TokenStore {
    var storage: map<string, string>

    constructor(initial: map<string, string>)
      ensures storage == initial
    {
      storage := initial;
    }

    method GetAccessToken() returns (token: Option<string>)
      ensures token == GetItem(storage, ACCESS_TOKEN_KEY)
    {
      token := GetItem(storage, ACCESS_TOKEN_KEY);
    }

    method GetRefreshToken() returns (token: Option<string>)
      ensures token == GetItem(storage, REFRESH_TOKEN_KEY)
    {
      token := GetItem(storage, REFRESH_TOKEN_KEY);
    }

    method SetAccessToken(token: string)
      modifies this
      ensures storage == old(storage)[ACCESS_TOKEN_KEY := token]
      ensures GetItem(storage, ACCESS_TOKEN_KEY) == Some(token)
      ensures GetItem(storage, REFRESH_TOKEN_KEY) == GetItem(old(storage), REFRESH_TOKEN_KEY)
    {
      storage := storage[ACCESS_TOKEN_KEY := token];
    }

    method SetRefreshToken(token: string)
      modifies this
      ensures storage == old(storage)[REFRESH_TOKEN_KEY := token]
      ensures GetItem(storage, REFRESH_TOKEN_KEY) == Some(token)
      ensures GetItem(storage, ACCESS_TOKEN_KEY) == GetItem(old(storage), ACCESS_TOKEN_KEY)
    {
      storage := storage[REFRESH_TOKEN_KEY := token];
    }

    method SetTokens(accessToken: string, refreshToken: string)
      modifies this
      ensures storage == old(storage)[ACCESS_TOKEN_KEY := accessToken][REFRESH_TOKEN_KEY := refreshToken]
      ensures GetItem(storage, ACCESS_TOKEN_KEY) == Some(accessToken)
      ensures GetItem(storage, REFRESH_TOKEN_KEY) == Some(refreshToken)
      ensures HasAccessToken(storage) <==> accessToken != ""
    {
      SetAccessToken(accessToken);
      SetRefreshToken(refreshToken);
    }

    method ClearTokens()
      modifies this
      ensures storage == old(storage) - {ACCESS_TOKEN_KEY, REFRESH_TOKEN_KEY}
      ensures GetItem(storage, ACCESS_TOKEN_KEY).None? && GetItem(storage, REFRESH_TOKEN_KEY).None?
      ensures !HasAccessToken(storage)
    {
      storage := storage - {ACCESS_TOKEN_KEY};
      storage := storage - {REFRESH_TOKEN_KEY};
    }

    method IsAuthenticated() returns (authenticated: bool)
      ensures authenticated <==> HasAccessToken(storage)
    {
      var token := GetAccessToken();
      authenticated := token.Some? && token.value != "";
    }
  }

  /** A request body: none, a `FormData` upload, or JSON data. */
  datatype Body = NoBody | FormBody | JsonBody(value: Json)

  /** JavaScript truthiness of a JSON value (`undefined` is folded into Null). */
  predicate Truthy(j: Json) {
    match j
    case Null => false
    case Prim(Bool(b)) => b
    case Prim(Num(n)) => n != 0
    case Prim(Str(s)) => s != ""
    case _ => true
  }

  /** The parts of an axios request configuration the request interceptor reads and writes. */
  class RequestConfig {
    var headers: map<string, string>
    var data: Body

    constructor(headers: map<string, string>, data: Body)
      ensures this.headers == headers && this.data == data
    {
      this.headers := headers;
      this.data := data;
    }
  }

  /** The request interceptor (api-client.ts lines 24-47): it attaches the bearer token,
      defaults the content type of non-multipart requests to JSON, and rewrites the keys of
      a JSON body to camelCase. */
  method InterceptRequest(config: RequestConfig, store: TokenStore)
    modifies config
    ensures HasAccessToken(store.storage) ==>
      GetItem(config.headers, AUTHORIZATION) == Some("Bearer " + store.storage[ACCESS_TOKEN_KEY])
    ensures !HasAccessToken(store.storage) ==>
      GetItem(config.headers, AUTHORIZATION) == GetItem(old(config.headers), AUTHORIZATION)
    ensures !old(config.data).FormBody? && (CONTENT_TYPE !in old(config.headers) || old(config.headers)[CONTENT_TYPE] == "") ==>
      GetItem(config.headers, CONTENT_TYPE) == Some(JSON_MEDIA_TYPE)
    ensures old(config.data).FormBody? || (CONTENT_TYPE in old(config.headers) && old(config.headers)[CONTENT_TYPE] != "") ==>
      GetItem(config.headers, CONTENT_TYPE) == GetItem(old(config.headers), CONTENT_TYPE)
    ensures forall h :: h != AUTHORIZATION && h != CONTENT_TYPE ==>
      GetItem(config.headers, h) == GetItem(old(config.headers), h)
    ensures old(config.data).JsonBody? && Truthy(old(config.data).value) && GetItem(config.headers, CONTENT_TYPE) == Some(JSON_MEDIA_TYPE) ==>
      config.data == JsonBody(CamelJson(old(config.data).value))
    ensures !(old(config.data).JsonBody? && Truthy(old(config.data).value) && GetItem(config.headers, CONTENT_TYPE) == Some(JSON_MEDIA_TYPE)) ==>
      config.data == old(config.data)
  {
    var token := store.GetAccessToken();
    if token.Some? && token.value != "" {
      config.headers := config.headers[AUTHORIZATION := "Bearer " + token.value];
    }
    if !config.data.FormBody? && (CONTENT_TYPE !in config.headers || config.headers[CONTENT_TYPE] == "") {
      config.headers := config.headers[CONTENT_TYPE := JSON_MEDIA_TYPE];
    }
    if config.data.JsonBody? && Truthy(config.data.value) && GetItem(config.headers, CONTENT_TYPE) == Some(JSON_MEDIA_TYPE) {
      var converted := ToCamelCase(config.data.value);
      config.data := JsonBody(converted);
    }
  }

  /** A successful axios response; `data` is the parsed body. */
  class Response {
    var status: int
    var data: Json

    constructor(status: int, data: Json)
      ensures this.status == status && this.data == data
    {
      this.status := status;
      this.data := data;
    }
  }

  /** The success half of the response interceptor (lines 55-61): object and array bodies
      have their keys rewritten to snake_case, anything else is left alone. */
  method InterceptResponse(response: Response)
    modifies response
    ensures response.data == SnakeJson(old(response.data))
    ensures !(old(response.data).Obj? || old(response.data).Arr?) ==> response.data == old(response.data)
    ensures response.status == old(response.status)
  {
    if response.data.Obj? || response.data.Arr? {
      response.data := ToSnakeCase(response.data);
    }
  }

  /** The server's answer inside a failed request: its status and the optional `message` and
      `errors` fields of its body. */
  datatype ErrorResponse = ErrorResponse(
    status: int, message: Option<string>, errors: Option<map<string, seq<string>>>)

  /** An `AxiosError`: the transport message, whether the original request configuration is
      attached, and the server's answer if one arrived. */
  datatype RequestFailure = RequestFailure(message: string, hasConfig: bool, response: Option<ErrorResponse>)

  /** `error.response?.data?.message`, with absence read as the empty string. */
  function ServerMessage(failure: RequestFailure): string {
    if failure.response.Some? && failure.response.value.message.Some?
    then failure.response.value.message.value
    else ""
  }

  /** The `ApiError` every failure is rejected with (lines 87-92). */
  function ToApiError(failure: RequestFailure): (e: ApiError)
    ensures e.message != ""
    ensures ServerMessage(failure) != "" ==> e.message == ServerMessage(failure)
    ensures ServerMessage(failure) == "" && failure.message != "" ==> e.message == failure.message
    ensures ServerMessage(failure) == "" && failure.message == "" ==> e.message == DEFAULT_ERROR_MESSAGE
    ensures failure.response.None? ==> e.statusCode.None? && e.errors.None?
    ensures failure.response.Some? ==>
      e.statusCode == Some(failure.response.value.status) && e.errors == failure.response.value.errors
  {
    var message :=
      if ServerMessage(failure) != "" then ServerMessage(failure)
      else if failure.message != "" then failure.message
      else DEFAULT_ERROR_MESSAGE;
    match failure.response
    case None => ApiError(message, None, None)
    case Some(r) => ApiError(message, Some(r.status), r.errors)
  }

  /** A 401 answer to a request whose configuration is known ends the session. */
  predicate SessionExpired(failure: RequestFailure) {
    failure.response.Some? && failure.response.value.status == 401 && failure.hasConfig
  }

  /** The failure half of the response interceptor (lines 62-95). On an expired session both
      tokens are removed and the browser is sent to the login page whether or not a refresh
      token was stored: no refresh is attempted. The failure is then rejected as an ApiError. */
  method HandleFailure(failure: RequestFailure, store: TokenStore) returns (error: ApiError, location: Option<string>)
    modifies store
    ensures error == ToApiError(failure)
    ensures SessionExpired(failure) ==>
      store.storage == old(store.storage) - {ACCESS_TOKEN_KEY, REFRESH_TOKEN_KEY} && location == Some(LOGIN_PATH)
    ensures !SessionExpired(failure) ==> store.storage == old(store.storage) && location == None
  {
    location := None;
    if failure.response.Some? && failure.response.value.status == 401 && failure.hasConfig {
      var refreshToken := store.GetRefreshToken();
      if refreshToken.Some? && refreshToken.value != "" {
        store.ClearTokens();
        location := Some(LOGIN_PATH);
      } else {
        store.ClearTokens();
        location := Some(LOGIN_PATH);
      }
    }
    error := ToApiError(failure);
  }
}

=== FILE: api_types.dfy ===
/** The server-backed records of src/types/api.ts, with the three-state task status.
    Field names are the wire names without their underscores (`schedule_id` is `scheduleId`);
    dates stay the ISO text the server sends. */
module ApiTypes {
  import opened Seqs

  datatype UserRole = ADMIN | WORKER

  datatype TaskStatus = PENDING | IN_PROGRESS | COMPLETED

  datatype User = User(id: int, name: string, email: string, role: UserRole, createdAt: string)

  datatype Schedule = Schedule(
    id: int, name: string, description: string,
    startDate: string, endDate: string, createdBy: int)

  datatype Task = Task(
    id: int, scheduleId: int, title: string, description: string,
    assignedTo: int, status: TaskStatus, dueDate: string)

  datatype LoginResponse = LoginResponse(accessToken: string, refreshToken: string, user: User)

  /** The body of the public admin registration request. */
  datatype RegisterAdminRequest = RegisterAdminRequest(name: string, email: string, password: string)

  /** The rejection value every failed request carries; `statusCode` and `errors` are
      optional, as in the interface. */
  datatype ApiError = ApiError(
    message: string, statusCode: Option<int>, errors: Option<map<string, seq<string>>>)
}

=== FILE: auth_context.dfy ===
/** The authentication context of src/contexts/AuthContext.tsx: the value the provider
    publishes, the ordering of `login`, the delegation of `logout`, and the `useAuth` guard. */
module AuthContext {
  import opened Seqs
  import opened ApiTypes
  import opened ApiClient
  import opened QueryKeys
  import opened AuthQueries

  const OUTSIDE_PROVIDER: string := "useAuth must be used within an AuthProvider"

  /** The `data` of `useMe()`: the user cached under `me()`, if any. */
  function CurrentUser(entries: Entries): (user: Option<User>)
    ensures user.Some? <==> Me() in entries && entries[Me()].data.UserData?
    ensures user.Some? ==> entries[Me()].data == UserData(user.value)
  {
    if Me() in entries && entries[Me()].data.UserData? then Some(entries[Me()].data.user) else None
  }

  /** The value the provider publishes. */
  datatype AuthContextValue = AuthContextValue(user: Option<User>, isLoading: bool, isAuthenticated: bool)

  /** The provider's value: the cached user, the query's loading flag, and `isAuthenticated`,
      which needs both a stored access token and a loaded user. */
  function ProviderValue(storage: map<string, string>, entries: Entries, isLoading: bool): (v: AuthContextValue)
    ensures v.user == CurrentUser(entries) && v.isLoading == isLoading
    ensures v.isAuthenticated ==> HasAccessToken(storage) && v.user.Some?
    ensures HasAccessToken(storage) && v.user.Some? ==> v.isAuthenticated
  {
    var user := CurrentUser(entries);
    AuthContextValue(user, isLoading, HasAccessToken(storage) && user.Some?)
  }

  /** After a logout neither a user nor authentication is published, whatever the state was. */
  lemma LoggedOutContext(storage: map<string, string>, isLoading: bool)
    ensures ProviderValue(storage - {ACCESS_TOKEN_KEY, REFRESH_TOKEN_KEY}, map[], isLoading)
      == AuthContextValue(None, isLoading, false)
  {
  }

  /** After a login whose server reply holds a non-empty access token, the provider publishes
      the user that ended up under `me()` and reports the visitor as authenticated. */
  lemma LoggedInContext(storage: map<string, string>, entries: Entries, response: LoginResponse, user: User, isLoading: bool)
    requires response.accessToken != ""
    ensures ProviderValue(
      storage[ACCESS_TOKEN_KEY := response.accessToken][REFRESH_TOKEN_KEY := response.refreshToken],
      entries[Me() := Entry(UserData(user), false)], isLoading)
      == AuthContextValue(Some(user), isLoading, true)
  {
    var s := storage[ACCESS_TOKEN_KEY := response.accessToken][REFRESH_TOKEN_KEY := response.refreshToken];
    assert s[ACCESS_TOKEN_KEY] == response.accessToken;
  }

  /** After a login whose user refetch met an expired session, the user the login stored is
      still published, but the visitor is not authenticated: the tokens are gone. */
  lemma ExpiredRefetchContext(storage: map<string, string>, entries: Entries, user: User, isLoading: bool)
    ensures ProviderValue(storage - {ACCESS_TOKEN_KEY, REFRESH_TOKEN_KEY}, entries[Me() := Entry(UserData(user), false)], isLoading)
      == AuthContextValue(Some(user), isLoading, false)
  {
  }

  /** `login(data)`: the login mutation runs first; only when it succeeds is the current user
      refetched. Each request that fails passes through the response interceptor's failure
      branch (`HandleFailure`) first: an expired session removes both tokens and sends the
      browser to `/login`, and the returned location is that redirect. A failed login is
      rejected with the interceptor's error and never refetches; a failed refetch does not
      reject `login`, and the cache keeps the user the login stored. */
  method Login(store: TokenStore, cache: QueryCache,
               loginReply: Result<LoginResponse, RequestFailure>, meReply: Result<User, RequestFailure>)
    returns (outcome: Result<(), ApiError>, location: Option<string>)
    modifies store, cache
    ensures loginReply.Failure? ==>
      outcome == Failure(ToApiError(loginReply.error)) && cache.entries == old(cache.entries)
    ensures loginReply.Failure? && SessionExpired(loginReply.error) ==>
      store.storage == old(store.storage) - {ACCESS_TOKEN_KEY, REFRESH_TOKEN_KEY} && location == Some(LOGIN_PATH)
    ensures loginReply.Failure? && !SessionExpired(loginReply.error) ==>
      store.storage == old(store.storage) && location == None
    ensures loginReply.Success? ==>
      outcome == Success(())
      && cache.entries == old(cache.entries)[Me() := Entry(UserData(if meReply.Success? then meReply.value else loginReply.value.user), false)]
    ensures loginReply.Success? && (meReply.Success? || !SessionExpired(meReply.error)) ==>
      store.storage == old(store.storage)[ACCESS_TOKEN_KEY := loginReply.value.accessToken][REFRESH_TOKEN_KEY := loginReply.value.refreshToken]
      && location == None
    ensures loginReply.Success? && meReply.Failure? && SessionExpired(meReply.error) ==>
      store.storage == old(store.storage) - {ACCESS_TOKEN_KEY, REFRESH_TOKEN_KEY} && location == Some(LOGIN_PATH)
    ensures location.Some? ==> !HasAccessToken(store.storage)
  {
    if loginReply.Failure? {
      var error;
      error, location := HandleFailure(loginReply.error, store);
      return Failure(error), location;
    }
    OnLoginSuccess(store, cache, loginReply.value);
    location := None;
    if meReply.Failure? {
      var error;
      error, location := HandleFailure(meReply.error, store);
      RefetchMe(cache, Failure(error));
    } else {
      RefetchMe(cache, Success(meReply.value));
    }
    outcome := Success(());
  }

  /** `logout()`: exactly the logout mutation. */
  method Logout(store: TokenStore, cache: QueryCache)
    modifies store, cache
    ensures store.storage == old(store.storage) - {ACCESS_TOKEN_KEY, REFRESH_TOKEN_KEY}
    ensures cache.entries == map[]
  {
    AuthQueries.Logout(store, cache);
  }

  /** `useAuth()`: the provider's value, or the error thrown outside a provider. */
  function UseAuth(context: Option<AuthContextValue>): (r: Result<AuthContextValue, string>)
    ensures r.Failure? <==> context.None?
    ensures r.Failure? ==> r.error == OUTSIDE_PROVIDER
    ensures r.Success? ==> r.value == context.value
  {
    match context
    case None => Failure(OUTSIDE_PROVIDER)
    case Some(value) => Success(value)
  }
}

=== FILE: auth_queries.dfy ===
/** The authentication hooks of src/hooks/queries/useAuth.ts: the `authKeys` factory, the
    current-user query, and the effects of login, register and logout on the token store
    and the query cache. The server calls are replaced by their replies, given as parameters. */
module AuthQueries {
  import opened Seqs
  import opened ApiTypes
  import opened ApiClient
  import opened QueryKeys

  const AUTH: string := "auth"
  const ME: string := "me"

  /** `authKeys.me()` */
  function Me(): (k: Key)
    ensures k == [Name(AUTH), Name(ME)]
  {
    All(AUTH) + [Name(ME)]
  }

  /** `useMe()`: the current user, fetched once and never retried after a failure. */
  function UseMe(): (q: QueryOptions)
    ensures q.key == Me() && q.enabled && q.retry == NeverRetry
  {
    QueryOptions(Me(), true, NeverRetry)
  }

  /** `useLogin`'s onSuccess: store both returned tokens, then put the returned user in the
      cache under `me()`. */
  method OnLoginSuccess(store: TokenStore, cache: QueryCache, response: LoginResponse)
    modifies store, cache
    ensures store.storage == old(store.storage)[ACCESS_TOKEN_KEY := response.accessToken][REFRESH_TOKEN_KEY := response.refreshToken]
    ensures cache.entries == old(cache.entries)[Me() := Entry(UserData(response.user), false)]
  {
    store.SetTokens(response.accessToken, response.refreshToken);
    cache.SetQueryData(Me(), UserData(response.user));
  }

  /** The `refetch` of `useMe`: a fetched user replaces the cached one; a failed fetch keeps
      what the cache held. */
  method RefetchMe(cache: QueryCache, reply: Result<User, ApiError>)
    modifies cache
    ensures reply.Success? ==> cache.entries == old(cache.entries)[Me() := Entry(UserData(reply.value), false)]
    ensures reply.Failure? ==> cache.entries == old(cache.entries)
  {
    if reply.Success? {
      cache.SetQueryData(Me(), UserData(reply.value));
    }
  }

  /** `useRegister`: the mutation has no onSuccess, so its outcome is the server's reply and
      neither the tokens nor the cache change. */
  method Register(store: TokenStore, cache: QueryCache, reply: Result<(), ApiError>) returns (outcome: Result<(), ApiError>)
    ensures outcome == reply
    ensures store.storage == old(store.storage) && cache.entries == old(cache.entries)
  {
    outcome := reply;
  }

  /** `useLogout`'s mutation: both tokens are removed and every cached query is dropped. */
  method Logout(store: TokenStore, cache: QueryCache)
    modifies store, cache
    ensures store.storage == old(store.storage) - {ACCESS_TOKEN_KEY, REFRESH_TOKEN_KEY}
    ensures !HasAccessToken(store.storage)
    ensures cache.entries == map[]
  {
    store.ClearTokens();
    cache.Clear();
  }
}

=== FILE: case_keys.dfy ===
/** The two key-rewriting rules of src/lib/transformers.ts: camelCase to snake_case
    (`key.replace(/[A-Z]/g, l => '_' + l.toLowerCase())`) and snake_case to camelCase
    (`key.replace(/_([a-z])/g, (_, l) => l.toUpperCase())`), and their inverse properties. */
module CaseKeys {

  predicate IsUpper(c: char) { 'A' <= c <= 'Z' }
  predicate IsLower(c: char) { 'a' <= c <= 'z' }

  function ToLower(c: char): (r: char)
    requires IsUpper(c)
    ensures IsLower(r)
  {
    (c as int + 32) as char
  }

  function ToUpper(c: char): (r: char)
    requires IsLower(c)
    ensures IsUpper(r) && ToLower(r) == c
  {
    (c as int - 32) as char
  }

  /** No ASCII capital letter occurs in `k`. */
  predicate NoUpper(k: string) {
    forall i :: 0 <= i < |k| ==> !IsUpper(k[i])
  }

  /** `k` contains a `_` directly followed by a lower-case ASCII letter: the pattern the
      snake-to-camel rule rewrites. */
  predicate HasBoundary(k: string) {
    exists i :: 0 <= i < |k| - 1 && k[i] == '_' && IsLower(k[i + 1])
  }

  /** The replacement text for one character under the camel-to-snake rule. */
  function SnakeChar(c: char): (r: string)
    ensures IsUpper(c) ==> r == ['_', ToLower(c)]
    ensures !IsUpper(c) ==> r == [c]
  {
    if IsUpper(c) then ['_', ToLower(c)] else [c]
  }

  /** camelCase to snake_case, as transformers.ts line 18 rewrites a key. */
  function SnakeKey(k: string): (r: string)
    ensures NoUpper(r)
    ensures |r| >= |k|
    ensures (|r| == 0) == (|k| == 0)
    ensures |k| > 0 ==> r[0] == (if IsUpper(k[0]) then '_' else k[0])
  {
    if k == [] then [] else SnakeChar(k[0]) + SnakeKey(k[1..])
  }

  /** The camel-to-snake rule works character by character: the key of a concatenation
      is the concatenation of the keys, so every character is replaced in place and in order. */
  lemma {:induction false} SnakeKeyAppend(a: string, b: string)
    ensures SnakeKey(a + b) == SnakeKey(a) + SnakeKey(b)
  {
    if a == [] {
      assert a + b == b;
    } else {
      assert (a + b)[0] == a[0];
      assert (a + b)[1..] == a[1..] + b;
      SnakeKeyAppend(a[1..], b);
    }
  }

  /** The camel-to-snake rule on one character: a capital becomes `_` and its lower-case
      letter, anything else is kept. */
  lemma SnakeKeyChar(c: char)
    ensures SnakeKey([c]) == SnakeChar(c)
  {
    assert [c][1..] == [];
  }

  /** snake_case to camelCase, as transformers.ts line 47 rewrites a key: the global regular
      expression scans left to right and its matches do not overlap. */
  function CamelKey(k: string): (r: string)
    ensures !HasBoundary(r)
    ensures |r| <= |k|
    ensures (|r| == 0) == (|k| == 0)
    ensures |r| > 0 && IsLower(r[0]) ==> r[0] == k[0]
    decreases |k|
  {
    if k == [] then []
    else if |k| >= 2 && k[0] == '_' && IsLower(k[1]) then
      var rest := CamelKey(k[2..]);
      var r := [ToUpper(k[1])] + rest;
      assert !HasBoundary(r) by {
        forall i | 0 <= i < |r| - 1 && r[i] == '_' ensures !IsLower(r[i + 1]) {
          assert i > 0;
          assert r[i] == rest[i - 1] && r[i + 1] == rest[i];
        }
      }
      r
    else
      var rest := CamelKey(k[1..]);
      var r := [k[0]] + rest;
      assert !HasBoundary(r) by {
        forall i | 0 <= i < |r| - 1 && r[i] == '_' ensures !IsLower(r[i + 1]) {
          if i == 0 {
            assert r[1] == rest[0];
            assert k[1..][0] == k[1] && !IsLower(k[1]);
            assert !IsLower(rest[0]);
          } else {
            assert r[i] == rest[i - 1] && r[i + 1] == rest[i];
          }
        }
      }
      r
  }

  /** Round trip one: a key without a `_`-lower-case pair comes back unchanged from
      camel-to-snake followed by snake-to-camel. */
  lemma {:induction false} CamelOfSnake(k: string)
    requires !HasBoundary(k)
    ensures CamelKey(SnakeKey(k)) == k
    decreases |k|
  {
    if k != [] {
      var rest := k[1..];
      assert !HasBoundary(rest) by {
        forall i | 0 <= i < |rest| - 1 && rest[i] == '_' ensures !IsLower(rest[i + 1]) {
          assert k[i + 1] == rest[i] && k[i + 2] == rest[i + 1];
        }
      }
      CamelOfSnake(rest);
      var s := SnakeKey(k);
      assert s == SnakeChar(k[0]) + SnakeKey(rest);
      if IsUpper(k[0]) {
        assert s[0] == '_' && s[1] == ToLower(k[0]);
        assert s[2..] == SnakeKey(rest);
        assert ToUpper(ToLower(k[0])) == k[0];
      } else {
        assert s[1..] == SnakeKey(rest);
        if |s| >= 2 && s[0] == '_' {
          assert rest != [] && s[1] == SnakeKey(rest)[0];
          assert k[1] == rest[0] && !IsLower(k[1]);
        }
      }
    }
  }

  /** Round trip two: a key without capitals comes back unchanged from snake-to-camel
      followed by camel-to-snake. */
  lemma {:induction false} SnakeOfCamel(k: string)
    requires NoUpper(k)
    ensures SnakeKey(CamelKey(k)) == k
    decreases |k|
  {
    if k != [] {
      if |k| >= 2 && k[0] == '_' && IsLower(k[1]) {
        var c := ToUpper(k[1]);
        var rest := CamelKey(k[2..]);
        assert CamelKey(k) == [c] + rest;
        SnakeOfCamel(k[2..]);
        SnakeKeyAppend([c], rest);
        SnakeKeyChar(c);
        assert SnakeChar(c) == ['_', k[1]];
        assert k == ['_', k[1]] + k[2..];
      } else {
        var rest := CamelKey(k[1..]);
        assert CamelKey(k) == [k[0]] + rest;
        SnakeOfCamel(k[1..]);
        SnakeKeyAppend([k[0]], rest);
        SnakeKeyChar(k[0]);
        assert SnakeChar(k[0]) == [k[0]];
        assert k == [k[0]] + k[1..];
      }
    }
  }

  /** On keys without a `_`-lower-case pair, camel-to-snake never maps two keys to one. */
  lemma SnakeKeyInjective(a: string, b: string)
    requires !HasBoundary(a) && !HasBoundary(b)
    requires SnakeKey(a) == SnakeKey(b)
    ensures a == b
  {
    CamelOfSnake(a);
    CamelOfSnake(b);
  }

  /** On keys without capitals, snake-to-camel never maps two keys to one. */
  lemma CamelKeyInjective(a: string, b: string)
    requires NoUpper(a) && NoUpper(b)
    requires CamelKey(a) == CamelKey(b)
    ensures a == b
  {
    SnakeOfCamel(a);
    SnakeOfCamel(b);
  }

  /** Two keys that do collide under camel-to-snake: `aB` and `a_b` both become `a_b`. */
  lemma SnakeKeyCollision()
    ensures SnakeKey("aB") == SnakeKey("a_b") == "a_b"
  {
    assert "aB" == ['a'] + "B";
    SnakeKeyAppend(['a'], "B");
    SnakeKeyChar('a');
    SnakeKeyChar('B');
    assert "a_b" == ['a'] + ("_" + "b");
    SnakeKeyAppend(['a'], "_" + "b");
    SnakeKeyAppend("_", "b");
    SnakeKeyChar('_');
    SnakeKeyChar('b');
  }
}

=== FILE: create_task_dialog.dfy ===
/** The task creation dialog of src/components/CreateTaskDialog.tsx: four form fields, the
    task built on submit, and the reset on submit and on close. The generated
    `task-<timestamp>` id is a parameter. */
module CreateTaskDialog {
  import opened Seqs
  import opened LegacyTypes

  /** The task `handleSubmit` builds: PENDING, in the dialog's schedule, with the form's
      fields, created and updated at the same instant, and without evidence. */
  function NewTask(id: string, schedule: Schedule, title: string, description: string, dueDate: string, assignedTo: string, now: int): (t: Task)
    ensures t.status == PENDING
    ensures t.id == id && t.scheduleId == schedule.id
    ensures t.title == title && t.description == description && t.dueDate == dueDate && t.assignedTo == assignedTo
    ensures t.createdAt == t.updatedAt == now
    ensures t.evidence.None?
  {
    Task(id, schedule.id, title, description, assignedTo, PENDING, dueDate, now, now, None)
  }

  class TaskForm {
    var title: string
    var description: string
    var dueDate: string
    var assignedTo: string

    constructor()
      ensures title == "" && description == "" && dueDate == "" && assignedTo == ""
    {
      title, description, dueDate, assignedTo := "", "", "", "";
    }

    /** `handleSubmit`: the task built from the fields, which are then cleared. */
    method HandleSubmit(schedule: Schedule, id: string, now: int) returns (task: Task)
      modifies this
      ensures task == NewTask(id, schedule, old(title), old(description), old(dueDate), old(assignedTo), now)
      ensures title == "" && description == "" && dueDate == "" && assignedTo == ""
    {
      task := NewTask(id, schedule, title, description, dueDate, assignedTo, now);
      title := "";
      description := "";
      dueDate := "";
      assignedTo := "";
    }

    /** `handleClose`: the fields are cleared. */
    method HandleClose()
      modifies this
      ensures title == "" && description == "" && dueDate == "" && assignedTo == ""
    {
      title := "";
      description := "";
      dueDate := "";
      assignedTo := "";
    }
  }
}

=== FILE: evidence_queries.dfy ===
/** The evidence queries of src/hooks/queries/useEvidence.ts: the `evidenceKeys` factory,
    the `enabled` rule of the per-task evidence query, and what an upload invalidates. */
module EvidenceQueries {
  import opened Seqs
  import opened QueryKeys
  import opened TaskQueries

  const EVIDENCE: string := "evidence"
  const TASK: string := "task"

  /** `evidenceKeys.byTask(taskId)` */
  function ByTask(taskId: int): (k: Key)
    ensures k == [Name(EVIDENCE), Name(TASK), Id(taskId)]
  {
    All(EVIDENCE) + [Name(TASK), Id(taskId)]
  }

  /** `useTaskEvidence(taskId)`: enabled only for a non-zero task id. */
  function UseTaskEvidence(taskId: int): (q: QueryOptions)
    ensures q.key == ByTask(taskId)
    ensures q.enabled <==> taskId != 0
  {
    QueryOptions(ByTask(taskId), taskId != 0, LibraryDefault)
  }

  /** The prefixes `useUploadEvidence` invalidates on success, in call order. */
  function UploadInvalidations(taskId: int): seq<Key> {
    [Detail(TASKS, taskId), ByTask(taskId)]
  }

  /** `useUploadEvidence`'s onSuccess. */
  method OnUploadSuccess(cache: QueryCache, taskId: int)
    modifies cache
    ensures cache.entries == InvalidatedAll(old(cache.entries), UploadInvalidations(taskId))
  {
    ghost var ps := UploadInvalidations(taskId);
    ghost var e0 := cache.entries;
    cache.Invalidate(Detail(TASKS, taskId));
    ghost var e1 := cache.entries;
    cache.Invalidate(ByTask(taskId));
    assert InvalidatedAll(e1, ps[1..]) == cache.entries by {
      assert ps[1..][1..] == [];
    }
  }

  /** An upload touches exactly the keys under the task's detail key and under its evidence
      key: the task's logs are reached through the detail prefix. */
  lemma UploadTouches(taskId: int, key: Key)
    ensures AnyCovers(UploadInvalidations(taskId), key)
      <==> Covers(Detail(TASKS, taskId), key) || Covers(ByTask(taskId), key)
    ensures AnyCovers(UploadInvalidations(taskId), Logs(taskId))
  {
    var ps := UploadInvalidations(taskId);
    if Covers(Detail(TASKS, taskId), key) {
      assert Covers(ps[0], key);
    }
    if Covers(ByTask(taskId), key) {
      assert Covers(ps[1], key);
    }
    assert Covers(ps[0], Logs(taskId));
  }

  /** An upload leaves every task list entry and every other task's detail and logs entries
      untouched. */
  lemma UploadSparesListsAndOtherTasks(taskId: int, other: int, filters: Option<string>)
    ensures !AnyCovers(UploadInvalidations(taskId), Lists(TASKS))
    ensures !AnyCovers(UploadInvalidations(taskId), List(TASKS, filters))
    ensures AnyCovers(UploadInvalidations(taskId), Detail(TASKS, other)) <==> other == taskId
    ensures AnyCovers(UploadInvalidations(taskId), Logs(other)) <==> other == taskId
  {
    UploadTouches(taskId, Lists(TASKS));
    UploadTouches(taskId, List(TASKS, filters));
    var l := List(TASKS, filters);
    assert l[..3] != Detail(TASKS, taskId) by {
      assert l[..3][1] == Name(LIST);
    }
    UploadTouches(taskId, Detail(TASKS, other));
    UploadTouches(taskId, Logs(other));
    DetailCoversOnlySameId(TASKS, taskId, TASKS, other, []);
    DetailCoversOnlySameId(TASKS, taskId, TASKS, other, [Name(LOGS)]);
    assert Detail(TASKS, other) + [] == Detail(TASKS, other);
  }
}

=== FILE: js_text.dfy ===
/** The JavaScript string built-ins the views and forms rely on: `Number.prototype.toString`
    for integers, `parseInt`, `String.prototype.trim` and `String.prototype.length`. */
module JsText {
  import opened Seqs

  predicate IsDigit(c: char) { '0' <= c <= '9' }

  function DigitValue(c: char): (d: nat)
    requires IsDigit(c)
    ensures d < 10
  {
    c as int - '0' as int
  }

  function DigitChar(d: nat): (c: char)
    requires d < 10
    ensures IsDigit(c) && DigitValue(c) == d
  {
    ('0' as int + d) as char
  }

  predicate AllDigits(s: string) {
    forall i :: 0 <= i < |s| ==> IsDigit(s[i])
  }

  /** The decimal digits of `n`, most significant first, with no leading zero. */
  function Digits(n: nat): (r: string)
    ensures |r| >= 1 && AllDigits(r)
    ensures |r| > 1 ==> r[0] != '0'
  {
    if n < 10 then [DigitChar(n)] else Digits(n / 10) + [DigitChar(n % 10)]
  }

  /** `n.toString()` for an integral number `n`. */
  function DecimalString(n: int): (r: string)
    ensures |r| >= 1
    ensures n < 0 <==> r[0] == '-'
    ensures n >= 0 ==> AllDigits(r)
    ensures n < 0 ==> AllDigits(r[1..])
  {
    if n < 0 then "-" + Digits(-n) else Digits(n)
  }

  /** The number a run of decimal digits denotes. */
  function DigitsValue(s: string): nat
    requires AllDigits(s)
  {
    if s == [] then 0 else DigitsValue(s[..|s| - 1]) * 10 + DigitValue(s[|s| - 1])
  }

  /** The longest prefix of `s` made of decimal digits: where `parseInt` stops reading. */
  function LeadingDigits(s: string): (r: string)
    ensures r <= s && AllDigits(r)
    ensures |r| < |s| ==> !IsDigit(s[|r|])
  {
    if s == [] || !IsDigit(s[0]) then [] else [s[0]] + LeadingDigits(s[1..])
  }

  /** `parseInt(s)` with no radix, for an integer result: an optional sign, then as many
      decimal digits as follow it. None stands for `NaN` (no digit where one is needed). */
  function ParseInt(s: string): (r: Option<int>)
    ensures s == [] ==> r.None?
    ensures |s| > 0 && IsDigit(s[0]) ==> r.Some? && r.value >= 0
    ensures |s| > 0 && !IsDigit(s[0]) && s[0] != '-' && s[0] != '+' ==> r.None?
  {
    if |s| > 0 && (s[0] == '-' || s[0] == '+') then
      var d := LeadingDigits(s[1..]);
      if d == [] then None
      else
        var v: int := DigitsValue(d);
        if s[0] == '-' then Some(-v) else Some(v)
    else
      var d := LeadingDigits(s);
      if d == [] then None else Some(DigitsValue(d))
  }

  /** Reading back the digits of `n` gives `n`. */
  lemma {:induction false} DigitsValueOfDigits(n: nat)
    ensures DigitsValue(Digits(n)) == n
  {
    if n >= 10 {
      var d := Digits(n);
      assert d[..|d| - 1] == Digits(n / 10);
      DigitsValueOfDigits(n / 10);
    }
  }

  /** On a string of digits `parseInt` reads all of it. */
  lemma {:induction false} LeadingDigitsOfDigits(s: string)
    requires AllDigits(s)
    ensures LeadingDigits(s) == s
  {
    if s != [] {
      LeadingDigitsOfDigits(s[1..]);
    }
  }

  /** `parseInt(n.toString())` is `n` for every integer `n`: an id turned into text by a
      view comes back unchanged when a handler parses it. */
  lemma ParseIntOfDecimal(n: int)
    ensures ParseInt(DecimalString(n)) == Some(n)
  {
    var s := DecimalString(n);
    if n < 0 {
      var d := Digits(-n);
      assert s == "-" + d && s[1..] == d;
      LeadingDigitsOfDigits(d);
      DigitsValueOfDigits(-n);
      assert LeadingDigits(s[1..]) == d;
    } else {
      var d := Digits(n);
      assert s == d && IsDigit(s[0]);
      LeadingDigitsOfDigits(d);
      DigitsValueOfDigits(n);
      assert LeadingDigits(s) == d;
    }
  }

  /** The characters `trim` removes: ECMAScript WhiteSpace (tab, vertical tab, form feed,
      space, no-break space, byte order mark and the Unicode space separators) and
      LineTerminator (line feed, carriage return, line and paragraph separators). */
  predicate IsJsSpace(c: char) {
    c == '\t' || c == '\n' || c == '\U{000B}' || c == '\U{000C}' || c == '\r' || c == ' '
    || c == '\U{00A0}' || c == '\U{1680}' || ('\U{2000}' <= c <= '\U{200A}')
    || c == '\U{2028}' || c == '\U{2029}' || c == '\U{202F}' || c == '\U{205F}'
    || c == '\U{3000}' || c == '\U{FEFF}'
  }

  /** `s` with its leading white space removed. */
  function TrimStart(s: string): (r: string)
    ensures |r| <= |s| && r == s[|s| - |r|..]
    ensures forall i :: 0 <= i < |s| - |r| ==> IsJsSpace(s[i])
    ensures r == [] || !IsJsSpace(r[0])
  {
    if s != [] && IsJsSpace(s[0]) then TrimStart(s[1..]) else s
  }

  /** `s` with its trailing white space removed. */
  function TrimEnd(s: string): (r: string)
    ensures |r| <= |s| && r == s[..|r|]
    ensures forall i :: |r| <= i < |s| ==> IsJsSpace(s[i])
    ensures r == [] || !IsJsSpace(r[|r| - 1])
  {
    if s != [] && IsJsSpace(s[|s| - 1]) then TrimEnd(s[..|s| - 1]) else s
  }

  /** `r` is the part of `s` that starts at `a`, and everything of `s` around it is white space. */
  predicate TrimmedAt(s: string, r: string, a: nat) {
    a + |r| <= |s| && r == s[a..a + |r|]
    && (forall i :: 0 <= i < a ==> IsJsSpace(s[i]))
    && (forall i :: a + |r| <= i < |s| ==> IsJsSpace(s[i]))
  }

  /** `s.trim()`: the part of `s` between its leading and its trailing white space. */
  function Trim(s: string): (r: string)
    ensures exists a: nat :: TrimmedAt(s, r, a)
    ensures r == [] || (!IsJsSpace(r[0]) && !IsJsSpace(r[|r| - 1]))
  {
    var t := TrimStart(s);
    var r := TrimEnd(t);
    assert TrimmedAt(s, r, |s| - |t|);
    r
  }

  /** Trimming twice is trimming once. */
  lemma TrimIdempotent(s: string)
    ensures Trim(Trim(s)) == Trim(s)
  {
    var r := Trim(s);
    if r != [] {
      assert TrimStart(r) == r;
      assert TrimEnd(r) == r;
    }
  }

  /** `s.length`: JavaScript counts UTF-16 code units, so a character outside the Basic
      Multilingual Plane counts twice. */
  function Utf16Length(s: string): (n: nat)
    ensures |s| <= n <= 2 * |s|
    ensures (forall i :: 0 <= i < |s| ==> s[i] as int <= 0xFFFF) ==> n == |s|
  {
    if s == [] then 0 else (if s[0] as int > 0xFFFF then 2 else 1) + Utf16Length(s[1..])
  }
}

=== FILE: legacy_types.dfy ===
/** The in-memory records of the local five-state task scheme. Their declaration module is
    not part of this model; they are defined here from the fields the dashboards, dialogs and
    lists read and write. Text the user types (ids, names, the due date) stays text; the
    instants the handlers take from the clock are integers. */
module LegacyTypes {
  import opened Seqs

  datatype Status = PENDING | IN_PROGRESS | COMPLETED | APPROVED | REJECTED

  datatype Evidence = Evidence(photoUrl: string, uploadedAt: int)

  datatype Task = Task(
    id: string, scheduleId: string, title: string, description: string,
    assignedTo: string, status: Status, dueDate: string,
    createdAt: int, updatedAt: int, evidence: Option<Evidence>)

  datatype Schedule = Schedule(id: string, name: string)

  datatype Worker = Worker(id: string, name: string, email: string)

  datatype User = User(id: string, name: string)

  datatype TraceAction = CREATED | UPDATED | STATUS_CHANGED | EVIDENCE_UPLOADED

  /** One entry of the trace log. The generated `trace-…` id is not modelled. */
  datatype TraceEntry = TraceEntry(taskId: string, action: TraceAction, user: string, timestamp: int, details: string)

  datatype AppData = AppData(
    schedules: seq<Schedule>, tasks: seq<Task>, workers: seq<Worker>, traceLog: seq<TraceEntry>)

  /** `tasks.map(t => t.id === id ? change(t) : t)`: every task with that id is rewritten,
      every other task is kept, and the order and count are preserved. */
  function UpdateWhere(tasks: seq<Task>, id: string, change: Task -> Task): (r: seq<Task>)
    ensures |r| == |tasks|
    ensures forall i :: 0 <= i < |tasks| ==> r[i] == (if tasks[i].id == id then change(tasks[i]) else tasks[i])
  {
    if tasks == [] then []
    else [if tasks[0].id == id then change(tasks[0]) else tasks[0]] + UpdateWhere(tasks[1..], id, change)
  }

  /** When no task has the id, the update leaves the tasks as they were. */
  lemma UpdateWhereAbsent(tasks: seq<Task>, id: string, change: Task -> Task)
    requires forall i :: 0 <= i < |tasks| ==> tasks[i].id != id
    ensures UpdateWhere(tasks, id, change) == tasks
  {
  }

  /** A due date is the text of the form; `new Date(text)` turns it into an instant, or into
      an invalid date (None), which compares false with everything. */
  type DateParser = string -> Option<int>

  /** `new Date(dueDate) < new Date()` */
  predicate DueBefore(dueDate: string, parse: DateParser, now: int) {
    parse(dueDate).Some? && parse(dueDate).value < now
  }

  /** The overdue rule of the five-state lists: a reviewed task (APPROVED or REJECTED) is
      never overdue; any other task, a COMPLETED one included, is overdue once its due date
      has passed. */
  function IsOverdue(dueDate: string, status: Status, parse: DateParser, now: int): (overdue: bool)
    ensures status == APPROVED || status == REJECTED ==> !overdue
    ensures status != APPROVED && status != REJECTED ==> (overdue <==> DueBefore(dueDate, parse, now))
  {
    if status == APPROVED || status == REJECTED then false else DueBefore(dueDate, parse, now)
  }
}

=== FILE: legacy_worker_task_list.dfy ===
/** The worker's task list of src/components/WorkerTaskList.tsx, over the five-state tasks:
    per card, the overdue badge, the schedule name, the evidence block, and which control
    the status selects. */
module LegacyWorkerTaskList {
  import opened Seqs
  import opened LegacyTypes

  /** The banner closing a reviewed task's card. */
  datatype Banner = NoBanner | ApprovedBanner | RejectedBanner

  /** `startTarget` is the id the start button passes, `completeTarget` the task the
      upload-and-complete button passes; None means the button is not shown. */
  datatype WorkerCard = WorkerCard(
    overdue: bool, scheduleName: Option<string>, evidence: Option<Evidence>,
    startTarget: Option<string>, completeTarget: Option<Task>, banner: Banner)

  function Card(task: Task, schedules: seq<Schedule>, parse: DateParser, now: int): (c: WorkerCard)
    ensures c.overdue == IsOverdue(task.dueDate, task.status, parse, now)
    ensures c.scheduleName.Some? <==> exists s :: s in schedules && s.id == task.scheduleId
    ensures c.scheduleName.Some? ==> exists s :: s in schedules && s.id == task.scheduleId && s.name == c.scheduleName.value
    ensures c.evidence == task.evidence
    ensures c.startTarget.Some? <==> task.status == PENDING
    ensures c.startTarget.Some? ==> c.startTarget.value == task.id
    ensures c.completeTarget.Some? <==> task.status == IN_PROGRESS
    ensures c.completeTarget.Some? ==> c.completeTarget.value == task
    ensures c.banner == ApprovedBanner <==> task.status == APPROVED
    ensures c.banner == RejectedBanner <==> task.status == REJECTED
  {
    var schedule := Find(schedules, (s: Schedule) => s.id == task.scheduleId);
    WorkerCard(
      IsOverdue(task.dueDate, task.status, parse, now),
      if schedule.Some? then Some(schedule.value.name) else None,
      task.evidence,
      if task.status == PENDING then Some(task.id) else None,
      if task.status == IN_PROGRESS then Some(task) else None,
      if task.status == APPROVED then ApprovedBanner
      else if task.status == REJECTED then RejectedBanner
      else NoBanner)
  }

  /** How many of the start button, the upload button and a banner a card shows. */
  function Controls(c: WorkerCard): nat {
    (if c.startTarget.Some? then 1 else 0)
    + (if c.completeTarget.Some? then 1 else 0)
    + (if c.banner != NoBanner then 1 else 0)
  }

  /** A task awaiting approval (COMPLETED) shows no control at all; every other status shows
      exactly one. */
  lemma OneControlPerStatus(task: Task, schedules: seq<Schedule>, parse: DateParser, now: int)
    ensures Controls(Card(task, schedules, parse, now)) == if task.status == COMPLETED then 0 else 1
  {
  }
}

=== FILE: query_keys.dfy ===
/** Query keys and the query cache the hooks under src/hooks/queries share.

    A key is a sequence of segments. The key factories of tasks, schedules and users follow
    one pattern (`all`, `lists()`, `list(filters)`, `details()`, `detail(id)`), defined here
    once over the factory's root name. The cache is modelled as a map from keys to entries;
    invalidating a prefix marks every entry whose key starts with it as stale, keeping its
    data. That prefix rule is an assumption about the query library's partial key matching,
    which is not part of this model. */
module QueryKeys {
  import opened Seqs
  import opened Transformers
  import opened ApiTypes

  /** One key segment: a name, a numeric id, or the `{ filters }` object of a list key. */
  datatype Segment = Name(name: string) | Id(id: int) | Filters(filters: Option<string>)

  type Key = seq<Segment>

  /** `prefix` selects `key` when invalidating: `key` starts with `prefix`, segment by segment. */
  predicate Covers(prefix: Key, key: Key) {
    |prefix| <= |key| && key[..|prefix|] == prefix
  }

  /** Some prefix of `prefixes` covers `key`. */
  predicate AnyCovers(prefixes: seq<Key>, key: Key) {
    exists i :: 0 <= i < |prefixes| && Covers(prefixes[i], key)
  }

  const LIST: string := "list"
  const DETAIL: string := "detail"

  /** `xKeys.all` */
  function All(root: string): Key { [Name(root)] }

  /** `xKeys.lists()` */
  function Lists(root: string): (k: Key)
    ensures k == [Name(root), Name(LIST)]
  {
    All(root) + [Name(LIST)]
  }

  /** `xKeys.list(filters)` */
  function List(root: string, filters: Option<string>): (k: Key)
    ensures k == [Name(root), Name(LIST), Filters(filters)]
  {
    Lists(root) + [Filters(filters)]
  }

  /** `xKeys.details()` */
  function Details(root: string): (k: Key)
    ensures k == [Name(root), Name(DETAIL)]
  {
    All(root) + [Name(DETAIL)]
  }

  /** `xKeys.detail(id)` */
  function Detail(root: string, id: int): (k: Key)
    ensures k == [Name(root), Name(DETAIL), Id(id)]
  {
    Details(root) + [Id(id)]
  }

  /** Every key of a factory starts with its root; `list(f)` starts with `lists()` and
      `detail(id)` with `details()`. */
  lemma FactoryHierarchy(root: string, filters: Option<string>, id: int)
    ensures Covers(All(root), Lists(root)) && Covers(All(root), List(root, filters))
    ensures Covers(All(root), Details(root)) && Covers(All(root), Detail(root, id))
    ensures Covers(Lists(root), List(root, filters)) && Covers(Details(root), Detail(root, id))
  {
  }

  /** A detail key covers a detail key, or any key extending one, only of the same root and id. */
  lemma DetailCoversOnlySameId(root: string, a: int, root2: string, b: int, suffix: Key)
    ensures Covers(Detail(root, a), Detail(root2, b) + suffix) <==> root == root2 && a == b
  {
    var k := Detail(root2, b) + suffix;
    if Covers(Detail(root, a), k) {
      assert k[0] == Name(root2) && k[2] == Id(b);
      assert k[..3][0] == Name(root) && k[..3][2] == Id(a);
    }
  }

  /** A list prefix never covers a detail key or a key extending one. */
  lemma ListsNeverCoverDetail(root: string, root2: string, id: int, suffix: Key)
    ensures !Covers(Lists(root), Detail(root2, id) + suffix)
  {
    var k := Detail(root2, id) + suffix;
    assert k[1] == Name(DETAIL);
  }

  /** A key whose first segment is another root's name is covered by no prefix that begins
      with this root's name: the factories of different roots never touch each other's keys. */
  lemma RootsSeparate(root: string, prefix: Key, key: Key)
    requires |prefix| > 0 && prefix[0] == Name(root)
    requires |key| > 0 && key[0] != Name(root)
    ensures !Covers(prefix, key)
  {
  }

  /** What the cache holds: the signed-in user, or a fetched body. */
  datatype CachedData = UserData(user: User) | FetchedData(body: Json)

  /** A cache entry: its data and whether it has been invalidated since it was written. */
  datatype Entry = Entry(data: CachedData, stale: bool)

  type Entries = map<Key, Entry>

  /** The entries after `invalidateQueries({ queryKey: prefix })`. */
  function Invalidated(entries: Entries, prefix: Key): Entries {
    map k | k in entries :: if Covers(prefix, k) then entries[k].(stale := true) else entries[k]
  }

  /** The entries after invalidating each prefix of `prefixes` in turn. */
  function InvalidatedAll(entries: Entries, prefixes: seq<Key>): Entries {
    if prefixes == [] then entries else InvalidatedAll(Invalidated(entries, prefixes[0]), prefixes[1..])
  }

  /** Invalidating a sequence of prefixes keeps every entry and its data, and marks stale
      exactly the entries some prefix covers; the others are untouched. */
  lemma {:induction false} InvalidatedAllEffect(entries: Entries, prefixes: seq<Key>)
    ensures InvalidatedAll(entries, prefixes).Keys == entries.Keys
    ensures forall k :: k in entries ==>
      InvalidatedAll(entries, prefixes)[k].data == entries[k].data
      && InvalidatedAll(entries, prefixes)[k].stale == (entries[k].stale || AnyCovers(prefixes, k))
  {
    if prefixes != [] {
      var next := Invalidated(entries, prefixes[0]);
      InvalidatedAllEffect(next, prefixes[1..]);
      forall k | k in entries
        ensures InvalidatedAll(entries, prefixes)[k].stale == (entries[k].stale || AnyCovers(prefixes, k))
      {
        if AnyCovers(prefixes[1..], k) {
          var i :| 0 <= i < |prefixes[1..]| && Covers(prefixes[1..][i], k);
          assert Covers(prefixes[i + 1], k);
        }
        if AnyCovers(prefixes, k) && !Covers(prefixes[0], k) {
          var i :| 0 <= i < |prefixes| && Covers(prefixes[i], k);
          assert Covers(prefixes[1..][i - 1], k);
        }
      }
    }
  }

  /** Whether a query runs, and how a failed fetch is retried. */
  datatype RetryPolicy = LibraryDefault | NeverRetry

  /** The options a query hook passes: its key, its `enabled` flag and its retry policy. */
  datatype QueryOptions = QueryOptions(key: Key, enabled: bool, retry: RetryPolicy)

  /** The shared query client. */
  class QueryCache {
    var entries: Entries

    constructor()
      ensures entries == map[]
    {
      entries := map[];
    }

    /** `queryClient.invalidateQueries({ queryKey: prefix })` */
    method Invalidate(prefix: Key)
      modifies this
      ensures entries == Invalidated(old(entries), prefix)
    {
      entries := Invalidated(entries, prefix);
    }

    /** `queryClient.setQueryData(key, data)`: a fresh entry for `key`. */
    method SetQueryData(key: Key, data: CachedData)
      modifies this
      ensures entries == old(entries)[key := Entry(data, false)]
    {
      entries := entries[key := Entry(data, false)];
    }

    /** `queryClient.clear()`: every entry is dropped. */
    method Clear()
      modifies this
      ensures entries == map[]
    {
      entries := map[];
    }
  }
}

=== FILE: register_page.dfy ===
/** The public admin registration form of src/components/common/RegisterPage.tsx: the two
    password checks, in order, then the request with trimmed name and email. The server's
    reply is a parameter; navigation is returned as a value. */
module RegisterPageForm {
  import opened Seqs
  import opened JsText
  import opened ApiTypes
  import opened Routing
  import ApiClient

  const PASSWORD_MISMATCH: string := "Las contraseñas no coinciden"
  const PASSWORD_TOO_SHORT: string := "La contraseña debe tener al menos 8 caracteres"
  const REGISTER_FAILED: string := "Error al crear la cuenta"
  const MIN_PASSWORD_LENGTH: nat := 8
  const REGISTERED_PARAM: string := "registered"

  /** The validation message, if any: a mismatch is reported before a short password, and
      the length is JavaScript's count of UTF-16 code units. */
  function Validate(password: string, confirmPassword: string): (error: Option<string>)
    ensures password != confirmPassword ==> error == Some(PASSWORD_MISMATCH)
    ensures password == confirmPassword && Utf16Length(password) < MIN_PASSWORD_LENGTH ==> error == Some(PASSWORD_TOO_SHORT)
    ensures error.None? <==> password == confirmPassword && Utf16Length(password) >= MIN_PASSWORD_LENGTH
  {
    if password != confirmPassword then Some(PASSWORD_MISMATCH)
    else if Utf16Length(password) < MIN_PASSWORD_LENGTH then Some(PASSWORD_TOO_SHORT)
    else None
  }

  /** Eight characters of the Basic Multilingual Plane always pass the length check, and
      fewer than four characters never do. */
  lemma LengthCheckBounds(password: string)
    ensures |password| >= MIN_PASSWORD_LENGTH ==> Validate(password, password).None?
    ensures |password| < 4 ==> Validate(password, password) == Some(PASSWORD_TOO_SHORT)
  {
  }

  /** The message shown for a failed request: the error's message, or the fallback. */
  function FailureMessage(error: ApiError): (message: string)
    ensures message != ""
    ensures error.message != "" ==> message == error.message
  {
    if error.message != "" then error.message else REGISTER_FAILED
  }

  /** The form's state. */
  class RegisterPage {
    var name: string
    var email: string
    var password: string
    var confirmPassword: string
    var error: Option<string>
    var isLoading: bool

    constructor()
      ensures name == "" && email == "" && password == "" && confirmPassword == ""
      ensures error.None? && !isLoading
    {
      name, email, password, confirmPassword := "", "", "", "";
      error := None;
      isLoading := false;
    }

    /** `handleSubmit`. The request is the one sent, if the checks pass; `reply` is the
        server's answer to it. The form fields are never changed. */
    method HandleSubmit(reply: Result<(), ApiError>) returns (request: Option<RegisterAdminRequest>, navigation: Option<Navigation>)
      modifies this
      ensures name == old(name) && email == old(email) && password == old(password) && confirmPassword == old(confirmPassword)
      ensures Validate(old(password), old(confirmPassword)).Some? ==>
        request.None? && navigation.None? && error == Validate(old(password), old(confirmPassword))
        && isLoading == old(isLoading)
      ensures Validate(old(password), old(confirmPassword)).None? ==>
        request == Some(RegisterAdminRequest(Trim(old(name)), Trim(old(email)), old(password))) && !isLoading
      ensures Validate(old(password), old(confirmPassword)).None? && reply.Success? ==>
        navigation == Some(Redirect(ApiClient.LOGIN_PATH, map[REGISTERED_PARAM := "true"])) && error.None?
      ensures Validate(old(password), old(confirmPassword)).None? && reply.Failure? ==>
        navigation.None? && error == Some(FailureMessage(reply.error))
    {
      error := None;
      request := None;
      navigation := None;
      if password != confirmPassword {
        error := Some(PASSWORD_MISMATCH);
        return;
      }
      if Utf16Length(password) < MIN_PASSWORD_LENGTH {
        error := Some(PASSWORD_TOO_SHORT);
        return;
      }
      isLoading := true;
      request := Some(RegisterAdminRequest(Trim(name), Trim(email), password));
      match reply {
        case Success(_) =>
          navigation := Some(Redirect(ApiClient.LOGIN_PATH, map[REGISTERED_PARAM := "true"]));
        case Failure(e) =>
          error := Some(FailureMessage(e));
      }
      isLoading := false;
    }
  }

  /** The name and email sent never begin or end with white space, and submitting the
      trimmed values again would send the same request. */
  lemma RequestIsTrimmed(name: string, email: string, password: string)
    ensures var r := RegisterAdminRequest(Trim(name), Trim(email), password);
      (r.name == [] || (!IsJsSpace(r.name[0]) && !IsJsSpace(r.name[|r.name| - 1])))
      && Trim(r.name) == r.name && Trim(r.email) == r.email
  {
    TrimIdempotent(name);
    TrimIdempotent(email);
  }
}

=== FILE: routes.dfy ===
/** What a route guard decides: let the navigation through, or redirect it to a path with
    search parameters. The login path is the one the HTTP client also sends expired
    sessions to. */
module Routing {
  datatype Navigation = Allow | Redirect(to: string, search: map<string, string>)

  const HOME_PATH: string := "/"
}

/** The `beforeLoad` of src/routes/_authenticated.tsx. */
module AuthenticatedRoute {
  import opened ApiClient
  import opened Routing

  const REDIRECT_PARAM: string := "redirect"

  /** Navigation into the authenticated layout goes through exactly when an access token is
      stored; otherwise it is sent to the login page, remembering where it was going. */
  function BeforeLoad(storage: map<string, string>, href: string): (r: Navigation)
    ensures r == Allow <==> HasAccessToken(storage)
    ensures r != Allow ==> r == Redirect(LOGIN_PATH, map[REDIRECT_PARAM := href])
  {
    if !HasAccessToken(storage) then Redirect(LOGIN_PATH, map[REDIRECT_PARAM := href]) else Allow
  }
}

/** The `beforeLoad` of src/routes/_authenticated/_admin.tsx. */
module AdminRoute {
  import opened Seqs
  import opened ApiTypes
  import opened ApiClient
  import opened Routing
  import AuthenticatedRoute

  /** The admin layout: no token sends the visitor to the login page; a known user who is
      not an ADMIN is sent home; otherwise, and also when no user is known, it goes through. */
  function BeforeLoad(storage: map<string, string>, contextUser: Option<User>): (r: Navigation)
    ensures !HasAccessToken(storage) ==> r == Redirect(LOGIN_PATH, map[])
    ensures HasAccessToken(storage) && contextUser.Some? && contextUser.value.role != ADMIN ==>
      r == Redirect(HOME_PATH, map[])
    ensures r == Allow <==> HasAccessToken(storage) && (contextUser.None? || contextUser.value.role == ADMIN)
  {
    if !HasAccessToken(storage) then Redirect(LOGIN_PATH, map[])
    else if contextUser.Some? && contextUser.value.role != ADMIN then Redirect(HOME_PATH, map[])
    else Allow
  }

  /** The root route's `beforeLoad` (src/routes/__root.tsx) returns an empty object, so no
      user reaches this guard through it; with no user in the context any holder of an
      access token is let through, a WORKER included. */
  lemma NoContextUserAdmitsAnyTokenHolder(storage: map<string, string>, worker: User)
    requires HasAccessToken(storage) && worker.role == WORKER
    ensures BeforeLoad(storage, None) == Allow
    ensures BeforeLoad(storage, Some(worker)) == Redirect(HOME_PATH, map[])
  {
  }

  /** Whatever user the context holds, the admin layout lets through only navigations the
      authenticated layout lets through. */
  lemma AdminImpliesAuthenticated(storage: map<string, string>, contextUser: Option<User>, href: string)
    ensures BeforeLoad(storage, contextUser) == Allow ==> AuthenticatedRoute.BeforeLoad(storage, href) == Allow
  {
  }
}

/** The `beforeLoad` of src/routes/_public/login.tsx. */
module LoginRoute {
  import opened ApiClient
  import opened Routing
  import AuthenticatedRoute

  /** A visitor with a stored access token is sent home; anyone else gets the login page.
      Only the stored token is consulted, never a loaded user. */
  function BeforeLoad(storage: map<string, string>): (r: Navigation)
    ensures r == Allow <==> !HasAccessToken(storage)
    ensures r != Allow ==> r == Redirect(HOME_PATH, map[])
  {
    if HasAccessToken(storage) then Redirect(HOME_PATH, map[]) else Allow
  }

  /** For every state of the storage exactly one of the login page and the authenticated
      layout is reachable. */
  lemma LoginAndAuthenticatedExclusive(storage: map<string, string>, href: string)
    ensures (BeforeLoad(storage) == Allow) != (AuthenticatedRoute.BeforeLoad(storage, href) == Allow)
  {
  }
}

/** The role dispatch of src/routes/_authenticated/dashboard.tsx. */
module DashboardRoute {
  import opened Seqs
  import opened ApiTypes

  datatype DashboardView = LoadingView | SupervisorView | WorkerView

  /** `DashboardPage`: a placeholder until the user is loaded, the supervisor dashboard for an
      ADMIN, the worker dashboard for anyone else. */
  function DashboardPage(user: Option<User>): (v: DashboardView)
    ensures v == LoadingView <==> user.None?
    ensures v == SupervisorView <==> user.Some? && user.value.role == ADMIN
    ensures v == WorkerView <==> user.Some? && user.value.role != ADMIN
  {
    if user.None? then LoadingView
    else if user.value.role == ADMIN then SupervisorView
    else WorkerView
  }
}

=== FILE: schedule_list.dfy ===
/** The schedule cards of src/components/features/schedules/ScheduleList.tsx: per schedule,
    its tasks, how many are COMPLETED, the progress percentage, and the selection highlight.
    The percentage is kept as an exact real; its rounding for display is left out. */
module ScheduleListView {
  import opened Seqs
  import opened ApiTypes

  /** `tasks.filter((t) => t.schedule_id === schedule.id)` */
  function ScheduleTasks(tasks: seq<Task>, schedule: Schedule): (r: seq<Task>)
    ensures |r| <= |tasks|
    ensures forall t :: t in r <==> t in tasks && t.scheduleId == schedule.id
  {
    Filter(tasks, (t: Task) => t.scheduleId == schedule.id)
  }

  predicate IsCompleted(t: Task) { t.status == COMPLETED }

  /** The number of COMPLETED tasks among `tasks`. */
  function CompletedCount(tasks: seq<Task>): (n: nat)
    ensures tasks == [] ==> n == 0
    ensures |tasks| == 1 ==> n == (if tasks[0].status == COMPLETED then 1 else 0)
    ensures n <= |tasks|
    ensures n == |tasks| <==> forall t :: t in tasks ==> t.status == COMPLETED
  {
    FilterKeepsLength(tasks, IsCompleted);
    assert |tasks| == 1 ==> tasks[1..] == [];
    |Filter(tasks, IsCompleted)|
  }

  /** The count adds up over concatenation; with the empty and one-task cases above, this
      makes `CompletedCount` the number of COMPLETED tasks. */
  lemma CompletedCountAppend(a: seq<Task>, b: seq<Task>)
    ensures CompletedCount(a + b) == CompletedCount(a) + CompletedCount(b)
  {
    FilterAppend(a, b, IsCompleted);
  }

  /** `total > 0 ? (completed / total) * 100 : 0` */
  function Progress(completed: nat, total: nat): (p: real)
    requires completed <= total
    ensures 0.0 <= p <= 100.0
    ensures total == 0 ==> p == 0.0
    ensures p == 100.0 <==> total > 0 && completed == total
    ensures total > 0 ==> p * (total as real) == (completed as real) * 100.0
  {
    if total > 0 then
      RatioAtMostOne(completed, total);
      var q := completed as real / total as real;
      assert q * (total as real) == completed as real;
      assert (q * 100.0) * (total as real) == (q * (total as real)) * 100.0;
      q * 100.0
    else 0.0
  }

  lemma RatioAtMostOne(completed: nat, total: nat)
    requires 0 < total && completed <= total
    ensures 0.0 <= completed as real / total as real <= 1.0
    ensures completed as real / total as real == 1.0 <==> completed == total
  {
    var q := completed as real / total as real;
    var t := total as real;
    assert q * t == completed as real;
    assert (q - 1.0) * t == completed as real - t;
    assert q < 0.0 ==> q * t < 0.0;
    assert q > 1.0 ==> (q - 1.0) * t > 0.0;
    assert q < 1.0 ==> (q - 1.0) * t < 0.0;
  }

  /** What a schedule card shows: the badge count, the completed count, the progress, whether
      the progress bar is drawn and whether the card is highlighted. */
  datatype ScheduleCard = ScheduleCard(
    taskCount: nat, completed: nat, progress: real, showProgress: bool, highlighted: bool)

  function Card(schedule: Schedule, tasks: seq<Task>, selected: Option<Schedule>): (c: ScheduleCard)
    ensures c.taskCount == |ScheduleTasks(tasks, schedule)|
    ensures c.completed == CompletedCount(ScheduleTasks(tasks, schedule)) && c.completed <= c.taskCount
    ensures c.progress == Progress(c.completed, c.taskCount)
    ensures 0.0 <= c.progress <= 100.0
    ensures c.progress == 100.0 <==>
      c.taskCount > 0 && forall t :: t in tasks && t.scheduleId == schedule.id ==> t.status == COMPLETED
    ensures c.showProgress <==> c.taskCount > 0
    ensures c.highlighted <==> selected.Some? && selected.value.id == schedule.id
  {
    var own := ScheduleTasks(tasks, schedule);
    var completed := CompletedCount(own);
    ScheduleCard(|own|, completed, Progress(completed, |own|), |own| > 0,
      selected.Some? && selected.value.id == schedule.id)
  }

  datatype ScheduleListView = EmptyState | Cards(cards: seq<ScheduleCard>)

  /** The list: the empty-state message alone for no schedules, else one card per schedule. */
  function Render(schedules: seq<Schedule>, tasks: seq<Task>, selected: Option<Schedule>): (v: ScheduleListView)
    ensures v.EmptyState? <==> schedules == []
    ensures v.Cards? ==> |v.cards| == |schedules|
    ensures v.Cards? ==> forall i :: 0 <= i < |schedules| ==> v.cards[i] == Card(schedules[i], tasks, selected)
  {
    if schedules == [] then EmptyState
    else Cards(seq(|schedules|, i requires 0 <= i < |schedules| => Card(schedules[i], tasks, selected)))
  }

  /** With schedules of distinct ids, at most one card is highlighted. */
  lemma AtMostOneHighlighted(schedules: seq<Schedule>, tasks: seq<Task>, selected: Option<Schedule>, i: nat, j: nat)
    requires i < |schedules| && j < |schedules| && schedules[i].id != schedules[j].id
    ensures !(Card(schedules[i], tasks, selected).highlighted && Card(schedules[j], tasks, selected).highlighted)
  {
  }
}

=== FILE: schedule_queries.dfy ===
/** The schedule queries of src/hooks/queries/useSchedules.ts: the `schedulesKeys` factory,
    the `enabled` rule of the single-schedule query, and what the create, update and delete
    mutations invalidate. */
module ScheduleQueries {
  import opened Seqs
  import opened QueryKeys

  const SCHEDULES: string := "schedules"

  /** `useSchedules()`: the schedule list, always enabled. */
  function UseSchedules(): (q: QueryOptions)
    ensures q.key == [Name(SCHEDULES), Name(LIST)] && q.enabled
  {
    QueryOptions(Lists(SCHEDULES), true, LibraryDefault)
  }

  /** `useSchedule(id)`: enabled only for a non-zero id. */
  function UseSchedule(id: int): (q: QueryOptions)
    ensures q.key == [Name(SCHEDULES), Name(DETAIL), Id(id)]
    ensures q.enabled <==> id != 0
  {
    QueryOptions(Detail(SCHEDULES, id), id != 0, LibraryDefault)
  }

  function CreateScheduleInvalidations(): seq<Key> {
    [Lists(SCHEDULES)]
  }

  function UpdateScheduleInvalidations(id: int): seq<Key> {
    [Lists(SCHEDULES), Detail(SCHEDULES, id)]
  }

  function DeleteScheduleInvalidations(id: int): seq<Key> {
    [Lists(SCHEDULES)]
  }

  /** `useCreateSchedule`'s onSuccess. */
  method OnCreateScheduleSuccess(cache: QueryCache)
    modifies cache
    ensures cache.entries == InvalidatedAll(old(cache.entries), CreateScheduleInvalidations())
  {
    cache.Invalidate(Lists(SCHEDULES));
  }

  /** `useUpdateSchedule`'s onSuccess. */
  method OnUpdateScheduleSuccess(cache: QueryCache, id: int)
    modifies cache
    ensures cache.entries == InvalidatedAll(old(cache.entries), UpdateScheduleInvalidations(id))
  {
    ghost var ps := UpdateScheduleInvalidations(id);
    ghost var e0 := cache.entries;
    cache.Invalidate(Lists(SCHEDULES));
    ghost var e1 := cache.entries;
    cache.Invalidate(Detail(SCHEDULES, id));
    assert InvalidatedAll(e1, ps[1..]) == cache.entries by {
      assert ps[1..][1..] == [];
    }
  }

  /** `useDeleteSchedule`'s onSuccess. */
  method OnDeleteScheduleSuccess(cache: QueryCache, id: int)
    modifies cache
    ensures cache.entries == InvalidatedAll(old(cache.entries), DeleteScheduleInvalidations(id))
  {
    cache.Invalidate(Lists(SCHEDULES));
  }

  /** Creating or deleting a schedule touches exactly the keys under `lists()`; deleting
      schedule `id` leaves its own detail entry as it was. */
  lemma CreateAndDeleteTouchOnlyLists(id: int, key: Key)
    ensures AnyCovers(CreateScheduleInvalidations(), key) <==> Covers(Lists(SCHEDULES), key)
    ensures AnyCovers(DeleteScheduleInvalidations(id), key) <==> Covers(Lists(SCHEDULES), key)
    ensures !AnyCovers(DeleteScheduleInvalidations(id), Detail(SCHEDULES, id))
  {
    if Covers(Lists(SCHEDULES), key) {
      assert Covers(CreateScheduleInvalidations()[0], key);
      assert Covers(DeleteScheduleInvalidations(id)[0], key);
    }
    ListsNeverCoverDetail(SCHEDULES, SCHEDULES, id, []);
    assert Detail(SCHEDULES, id) + [] == Detail(SCHEDULES, id);
  }

  /** Updating schedule `id` touches the keys under `lists()` and under its own detail key,
      and no other schedule's detail entry. */
  lemma UpdateTouches(id: int, key: Key, other: int)
    ensures AnyCovers(UpdateScheduleInvalidations(id), key)
      <==> Covers(Lists(SCHEDULES), key) || Covers(Detail(SCHEDULES, id), key)
    ensures AnyCovers(UpdateScheduleInvalidations(id), Detail(SCHEDULES, other)) <==> other == id
  {
    var ps := UpdateScheduleInvalidations(id);
    if Covers(Lists(SCHEDULES), key) {
      assert Covers(ps[0], key);
    }
    if Covers(Detail(SCHEDULES, id), key) {
      assert Covers(ps[1], key);
    }
    var d := Detail(SCHEDULES, other);
    if other == id {
      assert Covers(ps[1], d);
    }
    DetailCoversOnlySameId(SCHEDULES, id, SCHEDULES, other, []);
    ListsNeverCoverDetail(SCHEDULES, SCHEDULES, other, []);
    assert d + [] == d;
  }
}

=== FILE: seqs.dfy ===
/** Sequence helpers shared by the views: JavaScript's `Array.prototype.filter`
    and `Array.prototype.find`, with the facts the views rely on. */
module Seqs {

  /** `s.filter(p)`: the elements of `s` that satisfy `p`, in their original order. */
  function Filter<T>(s: seq<T>, p: T -> bool): (r: seq<T>)
    ensures |r| <= |s|
    ensures forall x :: x in r ==> x in s && p(x)
    ensures forall x :: x in s && p(x) ==> x in r
  {
    if s == [] then []
    else if p(s[0]) then [s[0]] + Filter(s[1..], p)
    else Filter(s[1..], p)
  }

  /** Filtering commutes with concatenation, so the kept elements stay in order. */
  lemma {:induction false} FilterAppend<T>(a: seq<T>, b: seq<T>, p: T -> bool)
    ensures Filter(a + b, p) == Filter(a, p) + Filter(b, p)
  {
    if a == [] {
      assert a + b == b;
    } else {
      assert (a + b)[1..] == a[1..] + b;
      FilterAppend(a[1..], b, p);
    }
  }

  /** Filtering with a predicate every element satisfies keeps the whole sequence. */
  lemma {:induction false} FilterAll<T>(s: seq<T>, p: T -> bool)
    requires forall x :: x in s ==> p(x)
    ensures Filter(s, p) == s
  {
    if s != [] {
      FilterAll(s[1..], p);
    }
  }

  /** Filtering with a predicate no element satisfies keeps nothing. */
  lemma {:induction false} FilterNone<T>(s: seq<T>, p: T -> bool)
    requires forall x :: x in s ==> !p(x)
    ensures Filter(s, p) == []
  {
    if s != [] {
      FilterNone(s[1..], p);
    }
  }

  /** Filtering twice is filtering once with the conjunction, given here as `both`. */
  lemma {:induction false} FilterFilter<T>(s: seq<T>, p: T -> bool, q: T -> bool, both: T -> bool)
    requires forall x :: x in s ==> both(x) == (p(x) && q(x))
    ensures Filter(Filter(s, p), q) == Filter(s, both)
  {
    if s != [] {
      FilterFilter(s[1..], p, q, both);
    }
  }

  /** Three predicates that split the elements of `s` into disjoint classes split its
      length: the three filters' lengths add up to `|s|`. */
  lemma {:induction false} FilterPartition3<T>(s: seq<T>, p: T -> bool, q: T -> bool, r: T -> bool)
    requires forall x :: x in s ==> (p(x) || q(x) || r(x))
    requires forall x :: x in s ==> !(p(x) && q(x)) && !(p(x) && r(x)) && !(q(x) && r(x))
    ensures |Filter(s, p)| + |Filter(s, q)| + |Filter(s, r)| == |s|
  {
    if s != [] {
      FilterPartition3(s[1..], p, q, r);
    }
  }

  /** Three mutually exclusive predicates never select more than `|s|` elements together. */
  lemma {:induction false} FilterDisjoint3<T>(s: seq<T>, p: T -> bool, q: T -> bool, r: T -> bool)
    requires forall x :: x in s ==> !(p(x) && q(x)) && !(p(x) && r(x)) && !(q(x) && r(x))
    ensures |Filter(s, p)| + |Filter(s, q)| + |Filter(s, r)| <= |s|
  {
    if s != [] {
      FilterDisjoint3(s[1..], p, q, r);
    }
  }

  /** A filter by a stronger predicate keeps no more elements than one by a weaker predicate. */
  lemma {:induction false} FilterMonotone<T>(s: seq<T>, p: T -> bool, q: T -> bool)
    requires forall x :: x in s && p(x) ==> q(x)
    ensures |Filter(s, p)| <= |Filter(s, q)|
  {
    if s != [] {
      FilterMonotone(s[1..], p, q);
    }
  }

  /** `s.find(p)`: the first element satisfying `p`, or None (JavaScript's `undefined`). */
  function Find<T>(s: seq<T>, p: T -> bool): (r: Option<T>)
    ensures r.Some? <==> exists i :: 0 <= i < |s| && p(s[i])
    ensures r.Some? ==> r.value in s && p(r.value)
    ensures r.Some? ==> exists i :: 0 <= i < |s| && s[i] == r.value && forall j :: 0 <= j < i ==> !p(s[j])
  {
    if s == [] then None
    else if p(s[0]) then Some(s[0])
    else
      var r := Find(s[1..], p);
      assert r.Some? ==> exists i :: 0 <= i < |s| && s[i] == r.value && forall j :: 0 <= j < i ==> !p(s[j]) by {
        if r.Some? {
          var i :| 0 <= i < |s[1..]| && s[1..][i] == r.value && forall j :: 0 <= j < i ==> !p(s[1..][j]);
          assert s[i + 1] == r.value;
          assert forall j :: 0 <= j < i + 1 ==> !p(s[j]) by {
            forall j | 0 <= j < i + 1 ensures !p(s[j]) {
              if j > 0 { assert s[j] == s[1..][j - 1]; }
            }
          }
        }
      }
      r
  }

  /** Exactly when every element satisfies `p` does the filter keep the whole length. */
  lemma {:induction false} FilterKeepsLength<T>(s: seq<T>, p: T -> bool)
    ensures |Filter(s, p)| == |s| <==> forall x :: x in s ==> p(x)
  {
    if s != [] {
      FilterKeepsLength(s[1..], p);
      if !p(s[0]) {
        assert |Filter(s, p)| < |s|;
      } else {
        assert forall x :: x in s ==> x == s[0] || x in s[1..];
      }
    }
  }

  datatype Option<+T> = None | Some(value: T)

  /** The outcome of an operation that can fail, as a rejected promise does. */
  datatype Result<+T, +E> = Success(value: T) | Failure(error: E)
}

=== FILE: supervisor_dashboard.dfy ===
/** The supervisor dashboard of src/components/SupervisorDashboard.tsx. Its handlers build a
    new AppData from the old one and replace the component state with it; the pure
    functions below build the new data and the class's methods install it. The handlers
    check nothing about the task they change: not its previous status, not its assignee. */
module Supervisor {
  import opened Seqs
  import opened LegacyTypes

  const APPROVED_DETAILS: string := "Tarea aprobada por el supervisor"
  const REJECTED_DETAILS: string := "Tarea rechazada por el supervisor"
  const CREATED_DETAILS_PREFIX: string := "Tarea creada y asignada a "

  /** A `Partial<Task>`: each field is either given or absent. */
  datatype TaskPatch = TaskPatch(
    id: Option<string>, scheduleId: Option<string>, title: Option<string>,
    description: Option<string>, assignedTo: Option<string>, status: Option<Status>,
    dueDate: Option<string>, createdAt: Option<int>, evidence: Option<Option<Evidence>>)

  /** A patch that sets only the status. */
  function StatusPatch(status: Status): TaskPatch {
    TaskPatch(None, None, None, None, None, Some(status), None, None, None)
  }

  function Pick<T>(given: Option<T>, current: T): T {
    if given.Some? then given.value else current
  }

  /** `{ ...t, ...updates, updatedAt: now }` */
  function Merge(t: Task, updates: TaskPatch, now: int): (r: Task)
    ensures r.updatedAt == now
    ensures r.status == Pick(updates.status, t.status)
    ensures forall s :: updates == StatusPatch(s) ==> r == t.(status := s, updatedAt := now)
  {
    Task(
      Pick(updates.id, t.id), Pick(updates.scheduleId, t.scheduleId), Pick(updates.title, t.title),
      Pick(updates.description, t.description), Pick(updates.assignedTo, t.assignedTo),
      Pick(updates.status, t.status), Pick(updates.dueDate, t.dueDate),
      Pick(updates.createdAt, t.createdAt), now, Pick(updates.evidence, t.evidence))
  }

  /** The details text of a CREATED entry: the assignee's name, or `undefined` when no worker
      has the task's `assignedTo` id, as the template literal prints it. */
  function CreatedDetails(workers: seq<Worker>, assignedTo: string): string {
    var worker := Find(workers, (w: Worker) => w.id == assignedTo);
    CREATED_DETAILS_PREFIX + (if worker.Some? then worker.value.name else "undefined")
  }

  /** The data after `handleCreateSchedule(schedule)`: the schedule is appended. */
  function WithSchedule(data: AppData, schedule: Schedule): (r: AppData)
    ensures r.schedules == data.schedules + [schedule]
    ensures r.tasks == data.tasks && r.workers == data.workers && r.traceLog == data.traceLog
  {
    data.(schedules := data.schedules + [schedule])
  }

  /** The data after `handleCreateTask(task)`: the task is appended, with one CREATED entry. */
  function WithTask(data: AppData, task: Task, user: User, now: int): (r: AppData)
    ensures r.tasks == data.tasks + [task] && r.tasks[|r.tasks| - 1] == task
    ensures r.schedules == data.schedules && r.workers == data.workers
    ensures |r.traceLog| == |data.traceLog| + 1 && r.traceLog[..|data.traceLog|] == data.traceLog
    ensures r.traceLog[|data.traceLog|] ==
      TraceEntry(task.id, CREATED, user.name, now, CreatedDetails(data.workers, task.assignedTo))
  {
    var entry := TraceEntry(task.id, CREATED, user.name, now, CreatedDetails(data.workers, task.assignedTo));
    data.(tasks := data.tasks + [task], traceLog := data.traceLog + [entry])
  }

  /** The data after `handleUpdateTask(taskId, updates, details)`: the tasks with that id are
      merged with the patch and stamped; one UPDATED entry is logged even when no task has
      the id. */
  function WithUpdatedTask(data: AppData, taskId: string, updates: TaskPatch, details: string, user: User, now: int): (r: AppData)
    ensures |r.tasks| == |data.tasks|
    ensures forall i :: 0 <= i < |data.tasks| && data.tasks[i].id != taskId ==> r.tasks[i] == data.tasks[i]
    ensures forall i :: 0 <= i < |data.tasks| && data.tasks[i].id == taskId ==> r.tasks[i] == Merge(data.tasks[i], updates, now)
    ensures r.schedules == data.schedules && r.workers == data.workers
    ensures r.traceLog == data.traceLog + [TraceEntry(taskId, UPDATED, user.name, now, details)]
  {
    data.(
      tasks := UpdateWhere(data.tasks, taskId, (t: Task) => Merge(t, updates, now)),
      traceLog := data.traceLog + [TraceEntry(taskId, UPDATED, user.name, now, details)])
  }

  /** Every supervisor handler keeps the old trace log as a prefix of the new one: the log
      only grows, by at most one entry. */
  lemma TraceLogAppendOnly(data: AppData, schedule: Schedule, task: Task, taskId: string, updates: TaskPatch, details: string, user: User, now: int)
    ensures data.traceLog <= WithSchedule(data, schedule).traceLog
    ensures data.traceLog <= WithTask(data, task, user, now).traceLog
    ensures data.traceLog <= WithUpdatedTask(data, taskId, updates, details, user, now).traceLog
    ensures |WithUpdatedTask(data, taskId, updates, details, user, now).traceLog| == |data.traceLog| + 1
  {
  }

  /** Approval sets APPROVED on every task with the id, whatever its status was, and logs it. */
  lemma ApproveSetsApproved(data: AppData, taskId: string, user: User, now: int)
    ensures var r := WithUpdatedTask(data, taskId, StatusPatch(APPROVED), APPROVED_DETAILS, user, now);
      forall i :: 0 <= i < |data.tasks| && data.tasks[i].id == taskId ==>
        r.tasks[i] == data.tasks[i].(status := APPROVED, updatedAt := now)
  {
  }

  /** `tasksForSchedule`: nothing without a selection, otherwise the tasks of the selected
      schedule in their original order. */
  function TasksForSchedule(tasks: seq<Task>, selected: Option<Schedule>): (r: seq<Task>)
    ensures selected.None? ==> r == []
    ensures selected.Some? ==> forall t :: t in r <==> t in tasks && t.scheduleId == selected.value.id
    ensures selected.Some? ==> r == Filter(tasks, (t: Task) => t.scheduleId == selected.value.id)
  {
    if selected.None? then [] else Filter(tasks, (t: Task) => t.scheduleId == selected.value.id)
  }

  /** The counts shown on a worker's card: pending, in progress and completed tasks among those
      assigned to the worker. */
  datatype WorkerCounts = WorkerCounts(pending: nat, inProgress: nat, completed: nat)

  function WorkerTasks(tasks: seq<Task>, workerId: string): seq<Task> {
    Filter(tasks, (t: Task) => t.assignedTo == workerId)
  }

  /** The tasks assigned to `workerId` that are in `status`, as one test. */
  function AssignedWithStatus(workerId: string, status: Status): Task -> bool {
    (t: Task) => t.assignedTo == workerId && t.status == status
  }

  /** The counts on a worker's card (the worker's tasks, then each status among them): each
      is the number of all tasks assigned to the worker in that status. */
  function CountsFor(tasks: seq<Task>, workerId: string): (c: WorkerCounts)
    ensures c.pending == |Filter(tasks, AssignedWithStatus(workerId, PENDING))|
    ensures c.inProgress == |Filter(tasks, AssignedWithStatus(workerId, IN_PROGRESS))|
    ensures c.completed == |Filter(tasks, AssignedWithStatus(workerId, COMPLETED))|
    ensures c.pending + c.inProgress + c.completed <= |WorkerTasks(tasks, workerId)|
  {
    var mine := WorkerTasks(tasks, workerId);
    var isMine := (t: Task) => t.assignedTo == workerId;
    var pending := (t: Task) => t.status == PENDING;
    var inProgress := (t: Task) => t.status == IN_PROGRESS;
    var completed := (t: Task) => t.status == COMPLETED;
    FilterDisjoint3(mine, pending, inProgress, completed);
    FilterFilter(tasks, isMine, pending, AssignedWithStatus(workerId, PENDING));
    FilterFilter(tasks, isMine, inProgress, AssignedWithStatus(workerId, IN_PROGRESS));
    FilterFilter(tasks, isMine, completed, AssignedWithStatus(workerId, COMPLETED));
    WorkerCounts(|Filter(mine, pending)|, |Filter(mine, inProgress)|, |Filter(mine, completed)|)
  }

  /** A worker's counts never include another worker's tasks: tasks assigned elsewhere can be
      added without changing them. */
  lemma CountsIgnoreOtherWorkers(tasks: seq<Task>, others: seq<Task>, workerId: string)
    requires forall t :: t in others ==> t.assignedTo != workerId
    ensures CountsFor(tasks + others, workerId) == CountsFor(tasks, workerId)
  {
    var p := (t: Task) => t.assignedTo == workerId;
    FilterAppend(tasks, others, p);
    FilterNone(others, p);
    assert WorkerTasks(tasks + others, workerId) == WorkerTasks(tasks, workerId);
  }

  /** The dashboard's state: the shared data and its own dialog and selection state. */
  class SupervisorDashboard {
    const currentUser: User
    var appData: AppData
    var showCreateSchedule: bool
    var showCreateTask: bool
    var selectedSchedule: Option<Schedule>
    var selectedTask: Option<Task>
    var showTaskDetails: bool

    constructor(currentUser: User, appData: AppData)
      ensures this.currentUser == currentUser && this.appData == appData
      ensures !showCreateSchedule && !showCreateTask && !showTaskDetails
      ensures selectedSchedule.None? && selectedTask.None?
    {
      this.currentUser := currentUser;
      this.appData := appData;
      showCreateSchedule := false;
      showCreateTask := false;
      selectedSchedule := None;
      selectedTask := None;
      showTaskDetails := false;
    }

    method HandleCreateSchedule(schedule: Schedule)
      modifies this
      ensures appData == WithSchedule(old(appData), schedule)
      ensures !showCreateSchedule
      ensures showCreateTask == old(showCreateTask) && showTaskDetails == old(showTaskDetails)
      ensures selectedSchedule == old(selectedSchedule) && selectedTask == old(selectedTask)
    {
      appData := WithSchedule(appData, schedule);
      showCreateSchedule := false;
    }

    method HandleCreateTask(task: Task, now: int)
      modifies this
      ensures appData == WithTask(old(appData), task, currentUser, now)
      ensures !showCreateTask
      ensures showCreateSchedule == old(showCreateSchedule) && showTaskDetails == old(showTaskDetails)
      ensures selectedSchedule == old(selectedSchedule) && selectedTask == old(selectedTask)
    {
      appData := WithTask(appData, task, currentUser, now);
      showCreateTask := false;
    }

    method HandleUpdateTask(taskId: string, updates: TaskPatch, traceDetails: string, now: int)
      modifies this
      ensures appData == WithUpdatedTask(old(appData), taskId, updates, traceDetails, currentUser, now)
      ensures showCreateSchedule == old(showCreateSchedule) && showCreateTask == old(showCreateTask)
      ensures showTaskDetails == old(showTaskDetails)
      ensures selectedSchedule == old(selectedSchedule) && selectedTask == old(selectedTask)
    {
      appData := WithUpdatedTask(appData, taskId, updates, traceDetails, currentUser, now);
    }

    method HandleApproveTask(taskId: string, now: int)
      modifies this
      ensures appData == WithUpdatedTask(old(appData), taskId, StatusPatch(APPROVED), APPROVED_DETAILS, currentUser, now)
      ensures showCreateSchedule == old(showCreateSchedule) && showCreateTask == old(showCreateTask)
      ensures showTaskDetails == old(showTaskDetails)
      ensures selectedSchedule == old(selectedSchedule) && selectedTask == old(selectedTask)
    {
      HandleUpdateTask(taskId, StatusPatch(APPROVED), APPROVED_DETAILS, now);
    }

    method HandleRejectTask(taskId: string, now: int)
      modifies this
      ensures appData == WithUpdatedTask(old(appData), taskId, StatusPatch(REJECTED), REJECTED_DETAILS, currentUser, now)
      ensures showCreateSchedule == old(showCreateSchedule) && showCreateTask == old(showCreateTask)
      ensures showTaskDetails == old(showTaskDetails)
      ensures selectedSchedule == old(selectedSchedule) && selectedTask == old(selectedTask)
    {
      HandleUpdateTask(taskId, StatusPatch(REJECTED), REJECTED_DETAILS, now);
    }

    method HandleViewTaskDetails(task: Task)
      modifies this
      ensures selectedTask == Some(task) && showTaskDetails
      ensures appData == old(appData)
      ensures showCreateSchedule == old(showCreateSchedule) && showCreateTask == old(showCreateTask)
      ensures selectedSchedule == old(selectedSchedule)
    {
      selectedTask := Some(task);
      showTaskDetails := true;
    }
  }
}

=== FILE: task_list.dfy ===
/** The supervisor's task list of src/components/features/tasks/TaskList.tsx, over the
    five-state tasks: one card per task, or an empty-state message. */
module TaskListView {
  import opened Seqs
  import opened LegacyTypes

  const UNASSIGNED: string := "Sin asignar"

  /** What a card shows beyond the task's own text: the overdue badge, the schedule name,
      the assignee label, the evidence marker, and the task id the approve and reject
      buttons pass (None: no buttons). */
  datatype TaskCard = TaskCard(
    overdue: bool, scheduleName: Option<string>, assignee: string,
    hasEvidence: bool, reviewTarget: Option<string>)

  datatype TaskListView = EmptyState | Cards(cards: seq<TaskCard>)

  /** `workers[i]` is the first worker whose id is `id`. */
  predicate FirstWithId(workers: seq<Worker>, i: int, id: string) {
    0 <= i < |workers| && workers[i].id == id && forall j :: 0 <= j < i ==> workers[j].id != id
  }

  /** `worker?.name || 'Sin asignar'` for the first worker with the task's assignee id. */
  function AssigneeLabel(workers: seq<Worker>, assignedTo: string): (shown: string)
    ensures shown != ""
    ensures (forall w :: w in workers ==> w.id != assignedTo) ==> shown == UNASSIGNED
    ensures shown != UNASSIGNED ==> exists w :: w in workers && w.id == assignedTo && w.name == shown
    ensures forall i :: FirstWithId(workers, i, assignedTo) ==>
      shown == (if workers[i].name != "" then workers[i].name else UNASSIGNED)
  {
    var worker := Find(workers, (w: Worker) => w.id == assignedTo);
    assert forall i :: FirstWithId(workers, i, assignedTo) ==> worker == Some(workers[i]) by {
      forall i | FirstWithId(workers, i, assignedTo) ensures worker == Some(workers[i]) {
        var k :| 0 <= k < |workers| && workers[k] == worker.value
          && forall j :: 0 <= j < k ==> workers[j].id != assignedTo;
        assert !(k < i) && !(i < k);
      }
    }
    if worker.Some? && worker.value.name != "" then worker.value.name else UNASSIGNED
  }

  /** `schedules?.find(...)?.name`: the schedule list is optional. */
  function ScheduleName(schedules: Option<seq<Schedule>>, scheduleId: string): (name: Option<string>)
    ensures schedules.None? ==> name.None?
    ensures schedules.Some? ==> (name.Some? <==> exists s :: s in schedules.value && s.id == scheduleId)
    ensures name.Some? ==> exists s :: s in schedules.value && s.id == scheduleId && s.name == name.value
  {
    if schedules.None? then None
    else
      var schedule := Find(schedules.value, (s: Schedule) => s.id == scheduleId);
      if schedule.Some? then Some(schedule.value.name) else None
  }

  function Card(task: Task, workers: seq<Worker>, schedules: Option<seq<Schedule>>, parse: DateParser, now: int): (c: TaskCard)
    ensures c.overdue == IsOverdue(task.dueDate, task.status, parse, now)
    ensures c.scheduleName == ScheduleName(schedules, task.scheduleId)
    ensures c.assignee == AssigneeLabel(workers, task.assignedTo)
    ensures c.hasEvidence <==> task.evidence.Some?
    ensures c.reviewTarget.Some? <==> task.status == COMPLETED
    ensures c.reviewTarget.Some? ==> c.reviewTarget.value == task.id
  {
    TaskCard(
      IsOverdue(task.dueDate, task.status, parse, now),
      ScheduleName(schedules, task.scheduleId),
      AssigneeLabel(workers, task.assignedTo),
      task.evidence.Some?,
      if task.status == COMPLETED then Some(task.id) else None)
  }

  /** The list: the empty-state message alone for no tasks, else one card per task in order. */
  function Render(tasks: seq<Task>, workers: seq<Worker>, schedules: Option<seq<Schedule>>, parse: DateParser, now: int): (v: TaskListView)
    ensures v.EmptyState? <==> tasks == []
    ensures v.Cards? ==> |v.cards| == |tasks|
    ensures v.Cards? ==> forall i :: 0 <= i < |tasks| ==> v.cards[i] == Card(tasks[i], workers, schedules, parse, now)
  {
    if tasks == [] then EmptyState
    else Cards(seq(|tasks|, i requires 0 <= i < |tasks| => Card(tasks[i], workers, schedules, parse, now)))
  }

  /** On a rendered list, review buttons are offered exactly on the COMPLETED tasks, each for
      its own task; a reviewed task shows no overdue badge. */
  lemma ReviewOnlyCompleted(tasks: seq<Task>, workers: seq<Worker>, schedules: Option<seq<Schedule>>, parse: DateParser, now: int, i: nat)
    requires i < |tasks|
    ensures var v := Render(tasks, workers, schedules, parse, now);
      v.Cards? && (v.cards[i].reviewTarget == Some(tasks[i].id) <==> tasks[i].status == COMPLETED)
      && (tasks[i].status in {APPROVED, REJECTED} ==> !v.cards[i].overdue)
  {
  }
}

=== FILE: task_queries.dfy ===
/** The task queries of src/hooks/queries/useTasks.ts: the `tasksKeys` factory, the
    `enabled` rules of the single-task queries, and what the two task mutations invalidate. */
module TaskQueries {
  import opened Seqs
  import opened QueryKeys

  const TASKS: string := "tasks"
  const LOGS: string := "logs"

  /** `tasksKeys.logs(id)`: the detail key of the task followed by `'logs'`. */
  function Logs(id: int): (k: Key)
    ensures k == [Name(TASKS), Name(DETAIL), Id(id), Name(LOGS)]
    ensures Covers(Detail(TASKS, id), k) && Covers(All(TASKS), k)
  {
    Detail(TASKS, id) + [Name(LOGS)]
  }

  /** `useTasks()`: the task list, always enabled. */
  function UseTasks(): (q: QueryOptions)
    ensures q.key == Lists(TASKS) && q.enabled && q.retry == LibraryDefault
  {
    QueryOptions(Lists(TASKS), true, LibraryDefault)
  }

  /** `useTask(id)`: enabled only for a non-zero id (`!!id`). */
  function UseTask(id: int): (q: QueryOptions)
    ensures q.key == Detail(TASKS, id)
    ensures q.enabled <==> id != 0
  {
    QueryOptions(Detail(TASKS, id), id != 0, LibraryDefault)
  }

  /** `useTaskLogs(id)`: enabled only for a non-zero id. */
  function UseTaskLogs(id: int): (q: QueryOptions)
    ensures q.key == Logs(id)
    ensures q.enabled <==> id != 0
  {
    QueryOptions(Logs(id), id != 0, LibraryDefault)
  }

  /** The prefixes `useCreateTask` invalidates on success. */
  function CreateTaskInvalidations(): seq<Key> {
    [Lists(TASKS)]
  }

  /** The prefixes `useUpdateTaskStatus` invalidates on success, in call order. */
  function UpdateStatusInvalidations(taskId: int): seq<Key> {
    [Detail(TASKS, taskId), Logs(taskId), Lists(TASKS)]
  }

  /** `useCreateTask`'s onSuccess. */
  method OnCreateTaskSuccess(cache: QueryCache)
    modifies cache
    ensures cache.entries == InvalidatedAll(old(cache.entries), CreateTaskInvalidations())
  {
    cache.Invalidate(Lists(TASKS));
  }

  /** `useUpdateTaskStatus`'s onSuccess. */
  method OnUpdateStatusSuccess(cache: QueryCache, taskId: int)
    modifies cache
    ensures cache.entries == InvalidatedAll(old(cache.entries), UpdateStatusInvalidations(taskId))
  {
    ghost var ps := UpdateStatusInvalidations(taskId);
    ghost var e0 := cache.entries;
    cache.Invalidate(Detail(TASKS, taskId));
    ghost var e1 := cache.entries;
    cache.Invalidate(Logs(taskId));
    ghost var e2 := cache.entries;
    cache.Invalidate(Lists(TASKS));
    assert InvalidatedAll(e2, ps[2..]) == cache.entries by {
      assert ps[2..][1..] == [];
    }
    assert InvalidatedAll(e1, ps[1..]) == cache.entries by {
      assert ps[1..][1..] == ps[2..];
    }
  }

  /** Creating a task touches exactly the keys under `lists()`: never a task's detail or logs. */
  lemma CreateTaskTouches(key: Key, id: int)
    ensures AnyCovers(CreateTaskInvalidations(), key) <==> Covers(Lists(TASKS), key)
    ensures !AnyCovers(CreateTaskInvalidations(), Detail(TASKS, id))
    ensures !AnyCovers(CreateTaskInvalidations(), Logs(id))
  {
    if AnyCovers(CreateTaskInvalidations(), key) {
      var i :| 0 <= i < 1 && Covers(CreateTaskInvalidations()[i], key);
    }
    if Covers(Lists(TASKS), key) {
      assert Covers(CreateTaskInvalidations()[0], key);
    }
    ListsNeverCoverDetail(TASKS, TASKS, id, []);
    ListsNeverCoverDetail(TASKS, TASKS, id, [Name(LOGS)]);
    assert Detail(TASKS, id) + [] == Detail(TASKS, id);
  }

  /** A status update touches the keys under the task's detail key (its logs among them) and
      under `lists()`, and nothing else; the separate logs invalidation adds nothing. */
  lemma UpdateStatusTouches(taskId: int, key: Key)
    ensures AnyCovers(UpdateStatusInvalidations(taskId), key)
      <==> Covers(Detail(TASKS, taskId), key) || Covers(Lists(TASKS), key)
  {
    var ps := UpdateStatusInvalidations(taskId);
    if Covers(Logs(taskId), key) {
      assert key[..3] == Detail(TASKS, taskId) by {
        assert key[..4][..3] == key[..3];
      }
    }
    if Covers(Detail(TASKS, taskId), key) {
      assert Covers(ps[0], key);
    }
    if Covers(Lists(TASKS), key) {
      assert Covers(ps[2], key);
    }
  }

  /** A status update reaches another task's entries only when the ids are equal, and reaches
      every filtered list. */
  lemma UpdateStatusSparesOtherTasks(taskId: int, other: int, filters: Option<string>)
    ensures AnyCovers(UpdateStatusInvalidations(taskId), Detail(TASKS, other)) <==> other == taskId
    ensures AnyCovers(UpdateStatusInvalidations(taskId), Logs(other)) <==> other == taskId
    ensures AnyCovers(UpdateStatusInvalidations(taskId), List(TASKS, filters))
  {
    UpdateStatusTouches(taskId, Detail(TASKS, other));
    UpdateStatusTouches(taskId, Logs(other));
    UpdateStatusTouches(taskId, List(TASKS, filters));
    DetailCoversOnlySameId(TASKS, taskId, TASKS, other, []);
    DetailCoversOnlySameId(TASKS, taskId, TASKS, other, [Name(LOGS)]);
    ListsNeverCoverDetail(TASKS, TASKS, other, []);
    ListsNeverCoverDetail(TASKS, TASKS, other, [Name(LOGS)]);
    assert Detail(TASKS, other) + [] == Detail(TASKS, other);
    FactoryHierarchy(TASKS, filters, other);
  }
}

=== FILE: transformers.dfy ===
/** src/lib/transformers.ts: the recursive key-case converters over JSON-like trees,
    `formatISODate` and `mapTaskStatus`. */
module Transformers {
  import opened CaseKeys
  import opened Seqs

  /** A JSON leaf. Numbers are modelled as integers. */
  datatype Scalar = Bool(b: bool) | Num(n: int) | Str(s: string)

  /** A JSON-like value. `Null` stands for both `null` and `undefined`; an object is the
      sequence of its entries in `Object.entries` order. */
  datatype Json = Null | Prim(value: Scalar) | Arr(items: seq<Json>) | Obj(entries: seq<(string, Json)>)

  type Entries = seq<(string, Json)>

  predicate HasKey(es: Entries, k: string) {
    exists i :: 0 <= i < |es| && es[i].0 == k
  }

  predicate DistinctKeys(es: Entries) {
    forall i, j :: 0 <= i < j < |es| ==> es[i].0 != es[j].0
  }

  /** The value stored under `k`, as `obj[k]` reads it. */
  function Lookup(es: Entries, k: string): (r: Option<Json>)
    ensures r.Some? <==> HasKey(es, k)
  {
    if es == [] then None
    else if es[0].0 == k then Some(es[0].1)
    else Lookup(es[1..], k)
  }

  /** The position of the first entry with key `k`. */
  function KeyIndex(es: Entries, k: string): (i: nat)
    requires HasKey(es, k)
    ensures i < |es| && es[i].0 == k
    ensures forall j :: 0 <= j < i ==> es[j].0 != k
  {
    if es[0].0 == k then 0
    else
      HasKeyCons(es);
      1 + KeyIndex(es[1..], k)
  }

  /** `result[k] = v` on a JavaScript object: an existing key is overwritten in its
      place, a new key is added at the end. */
  function Put(es: Entries, k: string, v: Json): (r: Entries)
    ensures forall key :: HasKey(r, key) <==> HasKey(es, key) || key == k
    ensures Lookup(r, k) == Some(v)
    ensures forall key :: key != k ==> Lookup(r, key) == Lookup(es, key)
    ensures !HasKey(es, k) ==> r == es + [(k, v)]
    ensures HasKey(es, k) ==> |r| == |es|
  {
    if es == [] then
      var r := [(k, v)];
      HasKeyCons(r);
      assert r[1..] == [];
      r
    else if es[0].0 == k then
      var r := [(k, v)] + es[1..];
      assert forall key :: HasKey(r, key) <==> HasKey(es, key) || key == k by {
        forall key ensures HasKey(r, key) <==> HasKey(es, key) || key == k {
          if HasKey(es, key) {
            var i :| 0 <= i < |es| && es[i].0 == key;
            assert r[i].0 == key;
          }
          if HasKey(r, key) {
            var i :| 0 <= i < |r| && r[i].0 == key;
            assert es[i].0 == key;
          }
        }
      }
      r
    else
      var tail := Put(es[1..], k, v);
      var r := [es[0]] + tail;
      HasKeyCons(es);
      HasKeyCons(r);
      assert !HasKey(es, k) ==> r == es + [(k, v)] by {
        if !HasKey(es, k) {
          assert tail == es[1..] + [(k, v)];
          assert es == [es[0]] + es[1..];
        }
      }
      r
  }

  /** Writing a key the object already has rewrites the entry where that key first occurs,
      in its place, and leaves every other entry as it was. */
  lemma {:induction false} PutInPlace(es: Entries, k: string, v: Json)
    requires HasKey(es, k)
    ensures Put(es, k, v) == es[KeyIndex(es, k) := (k, v)]
  {
    if es[0].0 == k {
      assert KeyIndex(es, k) == 0;
      assert Put(es, k, v) == [(k, v)] + es[1..];
    } else {
      HasKeyCons(es);
      var rest := es[1..];
      var i := KeyIndex(rest, k);
      assert KeyIndex(es, k) == i + 1;
      assert Put(es, k, v) == [es[0]] + Put(rest, k, v);
      PutInPlace(rest, k, v);
      assert [es[0]] + rest[i := (k, v)] == es[i + 1 := (k, v)];
    }
  }

  /** A key of a non-empty object is its first key or a key of the rest. */
  lemma HasKeyCons(es: Entries)
    requires es != []
    ensures forall key :: HasKey(es, key) <==> es[0].0 == key || HasKey(es[1..], key)
  {
    forall key ensures HasKey(es, key) <==> es[0].0 == key || HasKey(es[1..], key) {
      if HasKey(es, key) && es[0].0 != key {
        var i :| 0 <= i < |es| && es[i].0 == key;
        assert es[1..][i - 1].0 == key;
      }
      if HasKey(es[1..], key) {
        var i :| 0 <= i < |es[1..]| && es[1..][i].0 == key;
        assert es[i + 1].0 == key;
      }
    }
  }

  /** Writing a key keeps the keys of an object distinct. */
  lemma {:induction false} PutDistinct(es: Entries, k: string, v: Json)
    requires DistinctKeys(es)
    ensures DistinctKeys(Put(es, k, v))
  {
    var r := Put(es, k, v);
    if es != [] && es[0].0 != k {
      var tail := Put(es[1..], k, v);
      assert DistinctKeys(es[1..]) by {
        forall i, j | 0 <= i < j < |es[1..]| ensures es[1..][i].0 != es[1..][j].0 {
          assert es[1..][i] == es[i + 1] && es[1..][j] == es[j + 1];
        }
      }
      PutDistinct(es[1..], k, v);
      assert !HasKey(es[1..], es[0].0) by {
        forall i | 0 <= i < |es[1..]| ensures es[1..][i].0 != es[0].0 {
          assert es[1..][i] == es[i + 1];
        }
      }
      forall i, j | 0 <= i < j < |r| ensures r[i].0 != r[j].0 {
        assert r[j] == tail[j - 1];
        assert HasKey(tail, tail[j - 1].0);
        if i > 0 {
          assert r[i] == tail[i - 1];
        }
      }
    } else if es != [] {
      forall i, j | 0 <= i < j < |r| ensures r[i].0 != r[j].0 {
        assert r[j] == es[j];
        if i > 0 { assert r[i] == es[i]; }
      }
    }
  }

  /** The object the converters' `for` loop builds: the entries written one after the
      other, each with `result[key] = value`. */
  function Collect(pairs: Entries): (r: Entries)
    ensures forall key :: HasKey(r, key) <==> HasKey(pairs, key)
    decreases |pairs|
  {
    if pairs == [] then []
    else
      var n := |pairs| - 1;
      var front := Collect(pairs[..n]);
      HasKeySnoc(pairs);
      Put(front, pairs[n].0, pairs[n].1)
  }

  /** A key of a non-empty object is a key of its front or its last key. */
  lemma HasKeySnoc(es: Entries)
    requires es != []
    ensures forall key :: HasKey(es, key) <==> HasKey(es[..|es| - 1], key) || es[|es| - 1].0 == key
  {
    var n := |es| - 1;
    forall key ensures HasKey(es, key) <==> HasKey(es[..n], key) || es[n].0 == key {
      if HasKey(es, key) && es[n].0 != key {
        var i :| 0 <= i < |es| && es[i].0 == key;
        assert es[..n][i].0 == key;
      }
      if HasKey(es[..n], key) {
        var i :| 0 <= i < n && es[..n][i].0 == key;
        assert es[i].0 == key;
      }
    }
  }

  /** The object built by the loop never holds a key twice. */
  lemma {:induction false} CollectDistinct(pairs: Entries)
    ensures DistinctKeys(Collect(pairs))
    decreases |pairs|
  {
    if pairs != [] {
      var n := |pairs| - 1;
      CollectDistinct(pairs[..n]);
      PutDistinct(Collect(pairs[..n]), pairs[n].0, pairs[n].1);
    }
  }

  /** When the written keys are already distinct, the loop builds exactly the written entries. */
  lemma {:induction false} CollectOfDistinct(pairs: Entries)
    requires DistinctKeys(pairs)
    ensures Collect(pairs) == pairs
    decreases |pairs|
  {
    if pairs != [] {
      var n := |pairs| - 1;
      assert DistinctKeys(pairs[..n]) by {
        forall i, j | 0 <= i < j < n ensures pairs[..n][i].0 != pairs[..n][j].0 {
          assert pairs[..n][i] == pairs[i] && pairs[..n][j] == pairs[j];
        }
      }
      CollectOfDistinct(pairs[..n]);
      assert !HasKey(pairs[..n], pairs[n].0) by {
        forall i | 0 <= i < n ensures pairs[..n][i].0 != pairs[n].0 {
          assert pairs[..n][i] == pairs[i];
        }
      }
      assert pairs == pairs[..n] + [pairs[n]];
    }
  }

  /** A value JavaScript can hold: the keys of every object in it are distinct. */
  predicate WellFormed(j: Json) {
    match j
    case Null => true
    case Prim(_) => true
    case Arr(items) => forall i :: 0 <= i < |items| ==> WellFormed(items[i])
    case Obj(es) => DistinctKeys(es) && forall i :: 0 <= i < |es| ==> WellFormed(es[i].1)
  }

  /** Every object key anywhere in `j` satisfies `p`. */
  predicate KeysAll(j: Json, p: string -> bool) {
    match j
    case Null => true
    case Prim(_) => true
    case Arr(items) => forall i :: 0 <= i < |items| ==> KeysAll(items[i], p)
    case Obj(es) => forall i :: 0 <= i < |es| ==> p(es[i].0) && KeysAll(es[i].1, p)
  }

  /** Within every object of `j`, `rename` sends distinct keys to distinct keys. */
  predicate RenameSeparates(j: Json, rename: string -> string) {
    match j
    case Null => true
    case Prim(_) => true
    case Arr(items) => forall i :: 0 <= i < |items| ==> RenameSeparates(items[i], rename)
    case Obj(es) =>
      (forall i, k :: 0 <= i < k < |es| ==> rename(es[i].0) != rename(es[k].0)) &&
      forall i :: 0 <= i < |es| ==> RenameSeparates(es[i].1, rename)
  }

  /** The entries of an object with every key renamed and every value converted, in order,
      before they are written into the result object. */
  function RenamedEntries(es: Entries, rename: string -> string): (r: Entries)
    ensures |r| == |es|
    ensures forall i :: 0 <= i < |es| ==> r[i] == (rename(es[i].0), Rekey(es[i].1, rename))
  {
    seq(|es|, i requires 0 <= i < |es| => (rename(es[i].0), Rekey(es[i].1, rename)))
  }

  /** The shared shape of `toSnakeCase` and `toCamelCase`: `rename` rewrites every object key,
      recursively through nested objects and arrays, and nothing else changes. `null`,
      `undefined` and leaves come back as they are. */
  function Rekey(j: Json, rename: string -> string): (r: Json)
    ensures j.Null? || j.Prim? ==> r == j
    ensures r.Arr? == j.Arr? && r.Obj? == j.Obj?
    ensures j.Arr? ==> |r.items| == |j.items|
    ensures WellFormed(r)
  {
    match j
    case Null => j
    case Prim(_) => j
    case Arr(items) =>
      Arr(seq(|items|, i requires 0 <= i < |items| => Rekey(items[i], rename)))
    case Obj(es) =>
      var pairs := seq(|es|, i requires 0 <= i < |es| => (rename(es[i].0), Rekey(es[i].1, rename)));
      var r := Collect(pairs);
      CollectDistinct(pairs);
      assert forall i :: 0 <= i < |r| ==> WellFormed(r[i].1) by {
        forall i | 0 <= i < |r| ensures WellFormed(r[i].1) {
          CollectValue(pairs, i);
          var k :| 0 <= k < |pairs| && r[i] == pairs[k];
          assert pairs[k].1 == Rekey(es[k].1, rename);
        }
      }
      Obj(r)
  }

  /** Every value in a collected object is one of the values written. */
  lemma {:induction false} CollectValue(pairs: Entries, i: nat)
    requires i < |Collect(pairs)|
    ensures exists k :: 0 <= k < |pairs| && Collect(pairs)[i] == pairs[k]
    decreases |pairs|
  {
    var n := |pairs| - 1;
    var front := Collect(pairs[..n]);
    PutEntry(front, pairs[n].0, pairs[n].1, i);
    if Collect(pairs)[i] != pairs[n] {
      CollectValue(pairs[..n], i);
      var k :| 0 <= k < n && front[i] == pairs[..n][k];
      assert pairs[..n][k] == pairs[k];
    }
  }

  /** Every entry after `result[k] = v` is an old entry or the new one. */
  lemma {:induction false} PutEntry(es: Entries, k: string, v: Json, i: nat)
    requires i < |Put(es, k, v)|
    ensures Put(es, k, v)[i] == (k, v) || (i < |es| && Put(es, k, v)[i] == es[i])
  {
    if es != [] && es[0].0 != k && i > 0 {
      PutEntry(es[1..], k, v, i - 1);
    }
  }

  /** camelCase to snake_case over a tree (`toSnakeCase`). */
  function SnakeJson(j: Json): Json {
    Rekey(j, SnakeKey)
  }

  /** snake_case to camelCase over a tree (`toCamelCase`). */
  function CamelJson(j: Json): Json {
    Rekey(j, CamelKey)
  }

  /** The converter as the source runs it: `null`, `undefined` and non-objects returned as
      they are, arrays mapped element by element, objects filled entry by entry in a loop.
      It computes `Rekey`. */
  method ConvertKeys(obj: Json, rename: string -> string) returns (r: Json)
    ensures r == Rekey(obj, rename)
    decreases obj, 0
  {
    match obj {
      case Null => return obj;
      case Prim(_) => return obj;
      case Arr(items) =>
        var out: seq<Json> := [];
        for n := 0 to |items|
          invariant |out| == n
          invariant forall m :: 0 <= m < n ==> out[m] == Rekey(items[m], rename)
        {
          var c := ConvertKeys(items[n], rename);
          out := out + [c];
        }
        return Arr(out);
      case Obj(es) =>
        ghost var pairs := RenamedEntries(es, rename);
        var result: Entries := [];
        for n := 0 to |es|
          invariant result == Collect(pairs[..n])
        {
          var newKey := rename(es[n].0);
          var converted := ConvertField(es[n].1, rename);
          assert pairs[..n + 1][..n] == pairs[..n];
          result := Put(result, newKey, converted);
        }
        assert pairs[..|es|] == pairs;
        return Obj(result);
    }
  }

  /** One field value inside the entry loop: a nested object is converted recursively, an
      array is mapped with its object and array elements converted and its other elements
      kept, anything else is copied. */
  method ConvertField(value: Json, rename: string -> string) returns (converted: Json)
    ensures converted == Rekey(value, rename)
    decreases value, 1
  {
    if value.Obj? {
      converted := ConvertKeys(value, rename);
    } else if value.Arr? {
      var out: seq<Json> := [];
      for m := 0 to |value.items|
        invariant |out| == m
        invariant forall q :: 0 <= q < m ==> out[q] == Rekey(value.items[q], rename)
      {
        var item := value.items[m];
        if item.Obj? || item.Arr? {
          var c := ConvertKeys(item, rename);
          out := out + [c];
        } else {
          out := out + [item];
        }
      }
      converted := Arr(out);
    } else {
      converted := value;
    }
  }

  /** `toSnakeCase` as the source runs it. */
  method ToSnakeCase(obj: Json) returns (r: Json)
    ensures r == SnakeJson(obj)
  {
    r := ConvertKeys(obj, SnakeKey);
  }

  /** `toCamelCase` as the source runs it. */
  method ToCamelCase(obj: Json) returns (r: Json)
    ensures r == CamelJson(obj)
  {
    r := ConvertKeys(obj, CamelKey);
  }

  /** When the renaming keeps each object's keys apart, converted objects keep every
      entry in its place: entry `i` becomes the renamed key with the converted value. */
  lemma RekeyObjectEntries(es: Entries, rename: string -> string)
    requires RenameSeparates(Obj(es), rename)
    ensures Rekey(Obj(es), rename) == Obj(RenamedEntries(es, rename))
  {
    var pairs := RenamedEntries(es, rename);
    assert DistinctKeys(pairs);
    CollectOfDistinct(pairs);
  }

  /** The leaves of a tree (nulls and scalars), left to right. */
  function Leaves(j: Json): seq<Json> {
    match j
    case Null => [j]
    case Prim(_) => [j]
    case Arr(items) => Flatten(seq(|items|, i requires 0 <= i < |items| => Leaves(items[i])))
    case Obj(es) => Flatten(seq(|es|, i requires 0 <= i < |es| => Leaves(es[i].1)))
  }

  function Flatten(ss: seq<seq<Json>>): seq<Json> {
    if ss == [] then [] else ss[0] + Flatten(ss[1..])
  }

  /** Arrays whose elements have the same leaves pointwise have the same leaves. */
  lemma LeavesOfArr(items: seq<Json>, others: seq<Json>)
    requires |others| == |items|
    requires forall i :: 0 <= i < |items| ==> Leaves(others[i]) == Leaves(items[i])
    ensures Leaves(Arr(others)) == Leaves(Arr(items))
  {
    assert seq(|others|, i requires 0 <= i < |others| => Leaves(others[i]))
        == seq(|items|, i requires 0 <= i < |items| => Leaves(items[i]));
  }

  /** Objects whose values have the same leaves pointwise have the same leaves. */
  lemma LeavesOfObj(es: Entries, others: Entries)
    requires |others| == |es|
    requires forall i :: 0 <= i < |es| ==> Leaves(others[i].1) == Leaves(es[i].1)
    ensures Leaves(Obj(others)) == Leaves(Obj(es))
  {
    assert seq(|others|, i requires 0 <= i < |others| => Leaves(others[i].1))
        == seq(|es|, i requires 0 <= i < |es| => Leaves(es[i].1));
  }

  /** Only keys are rewritten: when no two keys of one object collide, the converted tree
      has exactly the same leaves, in the same order. */
  lemma {:induction false} RekeyKeepsLeaves(j: Json, rename: string -> string)
    requires RenameSeparates(j, rename)
    ensures Leaves(Rekey(j, rename)) == Leaves(j)
    decreases j
  {
    match j
    case Null =>
    case Prim(_) =>
    case Arr(items) =>
      var r := Rekey(j, rename);
      forall i | 0 <= i < |items| ensures Leaves(r.items[i]) == Leaves(items[i]) {
        RekeyKeepsLeaves(items[i], rename);
      }
      LeavesOfArr(items, r.items);
    case Obj(es) =>
      RekeyObjectEntries(es, rename);
      var pairs := RenamedEntries(es, rename);
      forall i | 0 <= i < |es| ensures Leaves(pairs[i].1) == Leaves(es[i].1) {
        RekeyKeepsLeaves(es[i].1, rename);
      }
      LeavesOfObj(es, pairs);
  }

  /** Converting with `rename` and then with `back` restores the tree when `back` undoes
      `rename` on every key of it and its objects have distinct keys. */
  lemma {:induction false} RekeyRoundTrip(j: Json, rename: string -> string, back: string -> string, keep: string -> bool)
    requires WellFormed(j) && KeysAll(j, keep)
    requires forall k :: keep(k) ==> back(rename(k)) == k
    ensures Rekey(Rekey(j, rename), back) == j
    decreases j
  {
    match j
    case Null =>
    case Prim(_) =>
    case Arr(items) =>
      var r := Rekey(j, rename);
      forall i | 0 <= i < |items| ensures Rekey(r.items[i], back) == items[i] {
        RekeyRoundTrip(items[i], rename, back, keep);
      }
    case Obj(es) =>
      forall i | 0 <= i < |es| ensures back(rename(es[i].0)) == es[i].0 && Rekey(Rekey(es[i].1, rename), back) == es[i].1 {
        RekeyRoundTrip(es[i].1, rename, back, keep);
      }
      RoundTripObject(es, rename, back);
  }

  /** The object step of the round trip: keys restored by `back` and values restored by
      the induction hypothesis give back the object. */
  lemma RoundTripObject(es: Entries, rename: string -> string, back: string -> string)
    requires DistinctKeys(es)
    requires forall i :: 0 <= i < |es| ==> back(rename(es[i].0)) == es[i].0
    requires forall i :: 0 <= i < |es| ==> Rekey(Rekey(es[i].1, rename), back) == es[i].1
    ensures Rekey(Rekey(Obj(es), rename), back) == Obj(es)
  {
    var pairs := RenamedEntries(es, rename);
    assert DistinctKeys(pairs) by {
      forall i, k | 0 <= i < k < |pairs| ensures pairs[i].0 != pairs[k].0 {
        assert back(pairs[i].0) == es[i].0 && back(pairs[k].0) == es[k].0;
      }
    }
    CollectOfDistinct(pairs);
    assert Rekey(Obj(es), rename) == Obj(pairs);
    var again := RenamedEntries(pairs, back);
    assert again == es;
    CollectOfDistinct(es);
  }

  /** The camel-to-snake-to-camel round trip over a whole tree. */
  lemma CamelAfterSnake(j: Json)
    requires WellFormed(j) && KeysAll(j, k => !HasBoundary(k))
    ensures CamelJson(SnakeJson(j)) == j
  {
    forall k | !HasBoundary(k) ensures CamelKey(SnakeKey(k)) == k {
      CamelOfSnake(k);
    }
    RekeyRoundTrip(j, SnakeKey, CamelKey, k => !HasBoundary(k));
  }

  /** The snake-to-camel-to-snake round trip over a whole tree. */
  lemma SnakeAfterCamel(j: Json)
    requires WellFormed(j) && KeysAll(j, NoUpper)
    ensures SnakeJson(CamelJson(j)) == j
  {
    forall k | NoUpper(k) ensures SnakeKey(CamelKey(k)) == k {
      SnakeOfCamel(k);
    }
    RekeyRoundTrip(j, CamelKey, SnakeKey, NoUpper);
  }

  /** Under each key, the object the loop builds holds the value of the last pair that
      writes that key: earlier writes of the same key are overwritten. */
  lemma {:induction false} CollectKeepsLastWrite(pairs: Entries, i: nat)
    requires i < |pairs|
    requires forall j :: i < j < |pairs| ==> pairs[j].0 != pairs[i].0
    ensures Lookup(Collect(pairs), pairs[i].0) == Some(pairs[i].1)
    decreases |pairs|
  {
    var n := |pairs| - 1;
    var front := pairs[..n];
    CollectLast(pairs);
    if i < n {
      LastWriteOfFront(pairs, i);
      CollectKeepsLastWrite(front, i);
    }
  }

  /** The loop's last step writes the last pair into the object built from the others. */
  lemma CollectLast(pairs: Entries)
    requires pairs != []
    ensures Collect(pairs) == Put(Collect(pairs[..|pairs| - 1]), pairs[|pairs| - 1].0, pairs[|pairs| - 1].1)
  {
  }

  /** The premise of `CollectKeepsLastWrite` carries over to all pairs but the last. */
  lemma LastWriteOfFront(pairs: Entries, i: nat)
    requires i < |pairs| - 1
    requires forall j :: i < j < |pairs| ==> pairs[j].0 != pairs[i].0
    ensures var front := pairs[..|pairs| - 1];
      front[i] == pairs[i] && pairs[|pairs| - 1].0 != pairs[i].0
      && forall j :: i < j < |front| ==> front[j].0 != front[i].0
  {
  }

  /** `toSnakeCase` on an object: under the renamed key of entry `i`, the result holds the
      converted value of the last entry whose key renames to the same key. */
  lemma SnakeKeepsLastWrite(es: Entries, i: nat)
    requires i < |es|
    requires forall j :: i < j < |es| ==> SnakeKey(es[j].0) != SnakeKey(es[i].0)
    ensures Lookup(SnakeJson(Obj(es)).entries, SnakeKey(es[i].0)) == Some(SnakeJson(es[i].1))
  {
    var pairs := RenamedEntries(es, SnakeKey);
    assert SnakeJson(Obj(es)) == Obj(Collect(pairs));
    CollectKeepsLastWrite(pairs, i);
  }

  /** An instance of the rule above: `aB` and `a_b` both become `a_b`, and the later value wins. */
  lemma SnakeCollisionKeepsLastWrite()
    ensures SnakeJson(Obj([("aB", Prim(Num(1))), ("a_b", Prim(Num(2)))])) == Obj([("a_b", Prim(Num(2)))])
  {
    SnakeKeyCollision();
    var es := [("aB", Prim(Num(1))), ("a_b", Prim(Num(2)))];
    var pairs := RenamedEntries(es, SnakeKey);
    assert es[0] == ("aB", Prim(Num(1))) && es[1] == ("a_b", Prim(Num(2)));
    assert pairs[0] == (SnakeKey("aB"), Prim(Num(1)));
    assert pairs[1] == (SnakeKey("a_b"), Prim(Num(2)));
    assert pairs == [("a_b", Prim(Num(1))), ("a_b", Prim(Num(2)))];
    assert pairs[..1] == [("a_b", Prim(Num(1)))];
    assert Collect(pairs[..1]) == pairs[..1];
  }

  /** `formatISODate`: the empty string for a missing or empty input, otherwise the text
      before the first `T` (the whole text when there is none). */
  function FormatISODate(iso: Option<string>): (r: string)
    ensures iso.None? || iso.value == [] ==> r == []
    ensures iso.Some? ==> r <= iso.value && 'T' !in r
    ensures iso.Some? && |r| < |iso.value| ==> iso.value[|r|] == 'T'
  {
    if iso.None? || iso.value == [] then [] else BeforeT(iso.value)
  }

  /** `s.split('T')[0]`. */
  function BeforeT(s: string): (r: string)
    ensures r <= s && 'T' !in r
    ensures |r| < |s| ==> s[|r|] == 'T'
  {
    if s == [] || s[0] == 'T' then [] else [s[0]] + BeforeT(s[1..])
  }

  /** `mapTaskStatus`: the identity, the backend status is passed through untouched. */
  function MapTaskStatus(status: string): (r: string)
    ensures r == status
  {
    status
  }
}

=== FILE: user_queries.dfy ===
/** The user queries of src/hooks/queries/useUsers.ts: the `usersKeys` factory,
    the `enabled` rule of the single-user query, and what the create, update and delete
    mutations invalidate. */
module UserQueries {
  import opened Seqs
  import opened QueryKeys
  import TaskQueries
  import ScheduleQueries

  const USERS: string := "users"

  /** `useUsers()`: the user list, always enabled. */
  function UseUsers(): (q: QueryOptions)
    ensures q.key == [Name(USERS), Name(LIST)] && q.enabled
  {
    QueryOptions(Lists(USERS), true, LibraryDefault)
  }

  /** `useUser(id)`: enabled only for a non-zero id. */
  function UseUser(id: int): (q: QueryOptions)
    ensures q.key == [Name(USERS), Name(DETAIL), Id(id)]
    ensures q.enabled <==> id != 0
  {
    QueryOptions(Detail(USERS, id), id != 0, LibraryDefault)
  }

  function CreateUserInvalidations(): seq<Key> {
    [Lists(USERS)]
  }

  function UpdateUserInvalidations(id: int): seq<Key> {
    [Lists(USERS), Detail(USERS, id)]
  }

  function DeleteUserInvalidations(id: int): seq<Key> {
    [Lists(USERS)]
  }

  /** `useCreateUser`'s onSuccess. */
  method OnCreateUserSuccess(cache: QueryCache)
    modifies cache
    ensures cache.entries == InvalidatedAll(old(cache.entries), CreateUserInvalidations())
  {
    cache.Invalidate(Lists(USERS));
  }

  /** `useUpdateUser`'s onSuccess. */
  method OnUpdateUserSuccess(cache: QueryCache, id: int)
    modifies cache
    ensures cache.entries == InvalidatedAll(old(cache.entries), UpdateUserInvalidations(id))
  {
    ghost var ps := UpdateUserInvalidations(id);
    ghost var e0 := cache.entries;
    cache.Invalidate(Lists(USERS));
    ghost var e1 := cache.entries;
    cache.Invalidate(Detail(USERS, id));
    assert InvalidatedAll(e1, ps[1..]) == cache.entries by {
      assert ps[1..][1..] == [];
    }
  }

  /** `useDeleteUser`'s onSuccess. */
  method OnDeleteUserSuccess(cache: QueryCache, id: int)
    modifies cache
    ensures cache.entries == InvalidatedAll(old(cache.entries), DeleteUserInvalidations(id))
  {
    cache.Invalidate(Lists(USERS));
  }

  /** Creating or deleting a user touches exactly the keys under `lists()`; deleting
      user `id` leaves its own detail entry as it was. */
  lemma CreateAndDeleteTouchOnlyLists(id: int, key: Key)
    ensures AnyCovers(CreateUserInvalidations(), key) <==> Covers(Lists(USERS), key)
    ensures AnyCovers(DeleteUserInvalidations(id), key) <==> Covers(Lists(USERS), key)
    ensures !AnyCovers(DeleteUserInvalidations(id), Detail(USERS, id))
  {
    if Covers(Lists(USERS), key) {
      assert Covers(CreateUserInvalidations()[0], key);
      assert Covers(DeleteUserInvalidations(id)[0], key);
    }
    ListsNeverCoverDetail(USERS, USERS, id, []);
    assert Detail(USERS, id) + [] == Detail(USERS, id);
  }

  /** Updating user `id` touches the keys under `lists()` and under its own detail key,
      and no other user's detail entry. */
  lemma UpdateTouches(id: int, key: Key, other: int)
    ensures AnyCovers(UpdateUserInvalidations(id), key)
      <==> Covers(Lists(USERS), key) || Covers(Detail(USERS, id), key)
    ensures AnyCovers(UpdateUserInvalidations(id), Detail(USERS, other)) <==> other == id
  {
    var ps := UpdateUserInvalidations(id);
    if Covers(Lists(USERS), key) {
      assert Covers(ps[0], key);
    }
    if Covers(Detail(USERS, id), key) {
      assert Covers(ps[1], key);
    }
    var d := Detail(USERS, other);
    if other == id {
      assert Covers(ps[1], d);
    }
    DetailCoversOnlySameId(USERS, id, USERS, other, []);
    ListsNeverCoverDetail(USERS, USERS, other, []);
    assert d + [] == d;
  }

  /** Every users prefix starts with `'users'`, so no user mutation touches a task or
      schedule entry. */
  lemma UserMutationsSpareTasksAndSchedules(id: int, key: Key)
    requires |key| > 0 && (key[0] == Name(TaskQueries.TASKS) || key[0] == Name(ScheduleQueries.SCHEDULES))
    ensures !AnyCovers(CreateUserInvalidations(), key)
    ensures !AnyCovers(UpdateUserInvalidations(id), key)
    ensures !AnyCovers(DeleteUserInvalidations(id), key)
  {
    forall p | p in UpdateUserInvalidations(id) ensures !Covers(p, key) {
      RootsSeparate(USERS, p, key);
    }
    RootsSeparate(USERS, Lists(USERS), key);
  }
}

=== FILE: worker_dashboard.dfy ===
/** The worker dashboard of src/components/dashboards/WorkerDashboard.tsx: the worker's own
    tasks split into three buckets, and the handlers that start a task, open the evidence
    dialog, and complete a task with its evidence. Like the supervisor's, the handlers check
    neither the task's previous status nor its assignee. */
module Worker {
  import opened Seqs
  import opened LegacyTypes

  const STARTED_DETAILS: string := "Tarea iniciada - Estado cambió de PENDING a IN_PROGRESS"
  const EVIDENCE_DETAILS: string := "Evidencia fotográfica subida - Tarea completada y esperando aprobación"

  /** `myTasks`: the tasks assigned to the user, in order. */
  function MyTasks(data: AppData, user: User): (r: seq<Task>)
    ensures forall t :: t in r <==> t in data.tasks && t.assignedTo == user.id
  {
    Filter(data.tasks, (t: Task) => t.assignedTo == user.id)
  }

  predicate IsPending(t: Task) { t.status == PENDING }
  predicate IsInProgress(t: Task) { t.status == IN_PROGRESS }
  /** The completed bucket also holds the reviewed tasks. */
  predicate IsDone(t: Task) { t.status == COMPLETED || t.status == APPROVED || t.status == REJECTED }

  /** The three buckets: pending, in progress, and completed (reviewed ones included). */
  datatype Buckets = Buckets(pending: seq<Task>, inProgress: seq<Task>, completed: seq<Task>)

  function BucketsOf(myTasks: seq<Task>): (b: Buckets)
    ensures |b.pending| + |b.inProgress| + |b.completed| == |myTasks|
    ensures forall t :: t in b.pending <==> t in myTasks && t.status == PENDING
    ensures forall t :: t in b.inProgress <==> t in myTasks && t.status == IN_PROGRESS
    ensures forall t :: t in b.completed <==> t in myTasks && t.status in {COMPLETED, APPROVED, REJECTED}
  {
    FilterPartition3(myTasks, IsPending, IsInProgress, IsDone);
    Buckets(Filter(myTasks, IsPending), Filter(myTasks, IsInProgress), Filter(myTasks, IsDone))
  }

  /** No task is in two buckets. */
  lemma BucketsDisjoint(myTasks: seq<Task>, t: Task)
    ensures var b := BucketsOf(myTasks);
      !(t in b.pending && t in b.inProgress) && !(t in b.pending && t in b.completed)
      && !(t in b.inProgress && t in b.completed)
  {
  }

  /** The data after `handleStartTask(taskId)`: the tasks with that id become IN_PROGRESS and
      are stamped; one STATUS_CHANGED entry is logged. */
  function WithStartedTask(data: AppData, taskId: string, user: User, now: int): (r: AppData)
    ensures |r.tasks| == |data.tasks|
    ensures forall i :: 0 <= i < |data.tasks| ==>
      r.tasks[i] == (if data.tasks[i].id == taskId then data.tasks[i].(status := IN_PROGRESS, updatedAt := now) else data.tasks[i])
    ensures r.schedules == data.schedules && r.workers == data.workers
    ensures r.traceLog == data.traceLog + [TraceEntry(taskId, STATUS_CHANGED, user.name, now, STARTED_DETAILS)]
  {
    data.(
      tasks := UpdateWhere(data.tasks, taskId, (t: Task) => t.(status := IN_PROGRESS, updatedAt := now)),
      traceLog := data.traceLog + [TraceEntry(taskId, STATUS_CHANGED, user.name, now, STARTED_DETAILS)])
  }

  /** The data after `handleUploadEvidence(taskId, photoUrl)`: the tasks with that id become
      COMPLETED with the evidence and are stamped; one EVIDENCE_UPLOADED entry is logged. */
  function WithEvidence(data: AppData, taskId: string, photoUrl: string, user: User, now: int): (r: AppData)
    ensures |r.tasks| == |data.tasks|
    ensures forall i :: 0 <= i < |data.tasks| ==>
      r.tasks[i] == (if data.tasks[i].id == taskId
                     then data.tasks[i].(status := COMPLETED, evidence := Some(Evidence(photoUrl, now)), updatedAt := now)
                     else data.tasks[i])
    ensures r.schedules == data.schedules && r.workers == data.workers
    ensures r.traceLog == data.traceLog + [TraceEntry(taskId, EVIDENCE_UPLOADED, user.name, now, EVIDENCE_DETAILS)]
  {
    data.(
      tasks := UpdateWhere(data.tasks, taskId,
        (t: Task) => t.(status := COMPLETED, evidence := Some(Evidence(photoUrl, now)), updatedAt := now)),
      traceLog := data.traceLog + [TraceEntry(taskId, EVIDENCE_UPLOADED, user.name, now, EVIDENCE_DETAILS)])
  }

  /** Starting a task moves it out of the pending bucket whatever its status was, also when
      it is someone else's task or already reviewed: the handler enforces no transition rule. */
  lemma StartIgnoresPreviousStatus(data: AppData, taskId: string, user: User, now: int, i: nat)
    requires i < |data.tasks| && data.tasks[i].id == taskId
    ensures WithStartedTask(data, taskId, user, now).tasks[i].status == IN_PROGRESS
    ensures WithStartedTask(data, taskId, user, now).tasks[i].assignedTo == data.tasks[i].assignedTo
  {
  }

  class WorkerDashboard {
    const currentUser: User
    var appData: AppData
    var selectedTask: Option<Task>
    var showUploadEvidence: bool

    constructor(currentUser: User, appData: AppData)
      ensures this.currentUser == currentUser && this.appData == appData
      ensures selectedTask.None? && !showUploadEvidence
    {
      this.currentUser := currentUser;
      this.appData := appData;
      selectedTask := None;
      showUploadEvidence := false;
    }

    method HandleStartTask(taskId: string, now: int)
      modifies this
      ensures appData == WithStartedTask(old(appData), taskId, currentUser, now)
      ensures selectedTask == old(selectedTask) && showUploadEvidence == old(showUploadEvidence)
    {
      appData := WithStartedTask(appData, taskId, currentUser, now);
    }

    /** Selecting a task for completion changes no task: it only opens the evidence dialog. */
    method HandleCompleteTask(task: Task)
      modifies this
      ensures appData == old(appData)
      ensures selectedTask == Some(task) && showUploadEvidence
    {
      selectedTask := Some(task);
      showUploadEvidence := true;
    }

    method HandleUploadEvidence(taskId: string, photoUrl: string, now: int)
      modifies this
      ensures appData == WithEvidence(old(appData), taskId, photoUrl, currentUser, now)
      ensures !showUploadEvidence && selectedTask.None?
    {
      appData := WithEvidence(appData, taskId, photoUrl, currentUser, now);
      showUploadEvidence := false;
      selectedTask := None;
    }
  }
}

=== FILE: worker_task_list.dfy ===
/** The worker's task list of src/components/features/workers/WorkerTaskList.tsx, over the
    three-state server tasks. Its overdue rule differs from the five-state lists: here a
    COMPLETED task is never overdue. */
module WorkerTaskList {
  import opened Seqs
  import opened JsText
  import opened ApiTypes
  import LegacyTypes

  /** The overdue rule of this list. */
  function IsOverdue(dueDate: string, status: TaskStatus, parse: LegacyTypes.DateParser, now: int): (overdue: bool)
    ensures status == COMPLETED ==> !overdue
    ensures status != COMPLETED ==> (overdue <==> LegacyTypes.DueBefore(dueDate, parse, now))
  {
    if status == COMPLETED then false else LegacyTypes.DueBefore(dueDate, parse, now)
  }

  /** The five-state status of the same name. */
  function Widen(status: TaskStatus): LegacyTypes.Status {
    match status
    case PENDING => LegacyTypes.PENDING
    case IN_PROGRESS => LegacyTypes.IN_PROGRESS
    case COMPLETED => LegacyTypes.COMPLETED
  }

  /** The two overdue rules agree on PENDING and IN_PROGRESS and part on COMPLETED: there the
      five-state rule still follows the due date, this one never reports the task overdue. */
  lemma OverdueRulesCompared(dueDate: string, status: TaskStatus, parse: LegacyTypes.DateParser, now: int)
    ensures status != COMPLETED ==>
      IsOverdue(dueDate, status, parse, now) == LegacyTypes.IsOverdue(dueDate, Widen(status), parse, now)
    ensures status == COMPLETED ==>
      !IsOverdue(dueDate, status, parse, now)
      && (LegacyTypes.IsOverdue(dueDate, Widen(status), parse, now) <==> LegacyTypes.DueBefore(dueDate, parse, now))
  {
  }

  /** `startArg` is the text the start button passes (`task.id.toString()`), `completeTarget`
      the task the upload button passes; None means the button is not shown. */
  datatype WorkerCard = WorkerCard(
    overdue: bool, scheduleName: Option<string>, startArg: Option<string>, completeTarget: Option<Task>)

  function Card(task: Task, schedules: seq<Schedule>, parse: LegacyTypes.DateParser, now: int): (c: WorkerCard)
    ensures c.overdue == IsOverdue(task.dueDate, task.status, parse, now)
    ensures c.scheduleName.Some? <==> exists s :: s in schedules && s.id == task.scheduleId
    ensures c.scheduleName.Some? ==> exists s :: s in schedules && s.id == task.scheduleId && s.name == c.scheduleName.value
    ensures c.startArg.Some? <==> task.status == PENDING
    ensures c.startArg.Some? ==> ParseInt(c.startArg.value) == Some(task.id)
    ensures c.completeTarget.Some? <==> task.status == IN_PROGRESS
    ensures c.completeTarget.Some? ==> c.completeTarget.value == task
    ensures !(c.startArg.Some? && c.completeTarget.Some?)
  {
    ParseIntOfDecimal(task.id);
    var schedule := Find(schedules, (s: Schedule) => s.id == task.scheduleId);
    WorkerCard(
      IsOverdue(task.dueDate, task.status, parse, now),
      if schedule.Some? then Some(schedule.value.name) else None,
      if task.status == PENDING then Some(DecimalString(task.id)) else None,
      if task.status == IN_PROGRESS then Some(task) else None)
  }
}
